=== FILE: README.md ===
# Copilot SDK wire types and client validation, in Dafny

This project models three parts of the Copilot SDK, a client library that talks
JSON-RPC to the Copilot CLI server.

1. **The Python response types** (`python/copilot/types.py`). Each response
   dataclass has a `from_dict`/`to_dict` pair. Each decoder:
   - refuses a non-object;
   - treats an absent key and a `null` key alike (`dict.get`);
   - reports missing required keys;
   - decodes optional nested records only when the value is truthy.

   Each encoder writes optional keys only when they are not `None`. The
   classes covered are `PingResponse`, `StopError`, `GetStatusResponse`,
   `GetAuthStatusResponse`, `ModelVisionLimits`, `ModelLimits`,
   `ModelSupports`, `ModelCapabilities`, `ModelPolicy`, `ModelBilling`,
   `ModelInfo` and `SessionMetadata`.
2. **The Go wire encoding** (`go/types.go`). The `omitempty` and `json:"-"`
   tags decide which keys appear when `ToolResult`, `ToolBinaryResult`,
   `PermissionRequest`, `PermissionRequestResult` and `GetAuthStatusResponse`
   are encoded. The Go encoder for auth status is proved to agree key for key
   with the Python `to_dict`. The file's one closed enumeration is the
   connection state, whose names the Python `ConnectionState` literal
   shares. The tool result type and the permission decision kinds are plain
   strings in Go; their closed sets are the Python `Literal`s
   `ToolResultType` and the permission result kinds in
   `python/copilot/types.py`.
3. **Go client construction and handler bridging.** As pinned by
   `go/client_test.go`:
   - `NewClient` validates its options;
   - `NewClient` parses the server address (`CLIUrl`) into host and port;
   - a call of an unregistered tool gets a failure `ToolResult`.

   As the handler comments in `go/types.go` document, a tool handler's
   error becomes a failure result and a permission handler's error becomes
   a denial.

   `client.go` is not part of this model. `Client.ParseCliUrl` and
   `Client.NewClient` are reconstructions that satisfy every assertion of
   the test file (see "Left out").

JSON is a small datatype (`Json.Json`). Decoding returns a `Result` whose error
is a structured `DecodeError`:
- `NotAnObject`;
- `MissingFields` with the missing keys in order;
- `WrongKind`.

Modules, one file each:
- `Results`;
- `Json`;
- `Decimal`: digit strings and Go's `strconv.Atoi`;
- `Enums`;
- `Responses`;
- `Models`;
- `GoWire`;
- `Client`;
- `ClientTests`: each client unit test as a lemma.

The Go helper `Bool` (`go/types.go:52-54`) is `Client.Bool`, a pointer to the
value. `Client.CliCommand` and `Client.UsesLoggedInUser` state the defaults the
option comments document.

## Model

| member | source | states |
|---|---|---|
| Responses.PingFromDict | python/copilot/types.py:328-339 | A non-object is refused. Otherwise an absent or null key among `message`, `timestamp`, `protocolVersion` yields exactly the list of missing ones. Decoding succeeds iff all three are present with string/int kinds, and the record holds those values. |
| Responses.PingRoundTrip | python/copilot/types.py:328-346 | Decoding the encoding of any `PingResponse` gives it back. |
| Responses.PingDecodeThenEncode | python/copilot/types.py:328-346 | Encoding a successfully decoded object gives the input restricted to its three known keys: unknown keys are dropped, nothing else changes. |
| Responses.PingToDict | python/copilot/types.py:341-346 | The keys are exactly `message`, `timestamp` and `protocolVersion`, holding the record's values. |
| Responses.StopErrorFromDict | python/copilot/types.py:356-362 | A non-object is refused; an absent or null `message` is a missing-field error; decoding succeeds iff `message` is a string, and keeps it. |
| Responses.StopErrorToDict | python/copilot/types.py:364-367 | The only key is `message`, holding the message. |
| Responses.StopErrorRoundTrip | python/copilot/types.py:356-367 | Decoding the encoding of any `StopError` gives it back. |
| Responses.StatusFromDict | python/copilot/types.py:378-388 | A non-object is refused; missing `version`/`protocolVersion` are listed; success iff both present with the right kinds, with those values. |
| Responses.StatusToDict | python/copilot/types.py:390-394 | The keys are exactly `version` and `protocolVersion`, holding the record's values. |
| Responses.StatusRoundTrip | python/copilot/types.py:378-394 | Decoding the encoding of any `GetStatusResponse` gives it back. |
| Responses.AuthStatusFromDict | python/copilot/types.py:408-424 | A non-object is refused; an absent or null `isAuthenticated` is a missing-field error. Decoding succeeds iff `isAuthenticated` is present and each of `authType`, `host`, `login`, `statusMessage` is absent, null or a string. On success the flag is the truthiness of `isAuthenticated`, and each optional field is the string under its key, or `None` when the key is absent or null. |
| Responses.AuthStatusToDict | python/copilot/types.py:426-437 | `isAuthenticated` is always written; each of `authType`, `host`, `login`, `statusMessage` appears iff it is not `None`, with its value; no other key appears. |
| Responses.AuthStatusRoundTrip | python/copilot/types.py:408-437 | Decoding the encoding of any `GetAuthStatusResponse` gives it back. |
| Responses.SessionMetadataFromDict | python/copilot/types.py:649-668 | A non-object is refused; missing ones among `sessionId`, `startTime`, `modifiedTime`, `isRemote` are listed. Decoding succeeds iff the three times/ids are strings, `isRemote` is present and `summary` is absent, null or a string. On success the fields hold those strings, `isRemote` is the truthiness of its value, and `summary` is the string under its key or `None`. |
| Responses.SessionMetadataToDict | python/copilot/types.py:670-678 | `sessionId`, `startTime`, `modifiedTime` and `isRemote` are always written with the record's values; `summary` appears iff it is set, with its value. |
| Responses.SessionMetadataRoundTrip | python/copilot/types.py:649-678 | Decoding the encoding of any `SessionMetadata` gives it back. |
| Models.VisionFromDict | python/copilot/types.py:449-459 | A non-object is refused; all three fields are optional. Decoding succeeds iff `supported_media_types` is absent, null or a list of strings and both counts are absent, null or integers. On success each field is the value under its key, or `None` when the key is absent or null. |
| Models.VisionToDict | python/copilot/types.py:461-469 | Each key appears iff its field is set, holding the field's value; the encoding is empty iff every field is `None`. |
| Models.VisionRoundTrip | python/copilot/types.py:449-469 | Decoding the encoding of any `ModelVisionLimits` gives it back. |
| Models.LimitsFromDict | python/copilot/types.py:480-491 | A non-object is refused. Decoding succeeds iff both token counts are absent, null or integers and a truthy `vision` decodes; a failing truthy `vision` passes its error on. On success the counts are the values under their keys, and `vision` is the decoded nested record when the key holds a truthy value and `None` otherwise (missing, null or empty). |
| Models.LimitsToDict | python/copilot/types.py:493-501 | Only the three known keys are written. Each appears iff its field is set: the counts hold their values and `vision` holds the nested encoding. |
| Models.LimitsRoundTripIff | python/copilot/types.py:449-501 | The round trip gives back a `ModelLimits` iff its `vision` is `None` or has at least one field set. |
| Models.EmptyVisionIsDropped | python/copilot/types.py:480-501 | An all-`None` vision record encodes to `{}` and comes back as no vision at all. |
| Models.SupportsFromDict | python/copilot/types.py:510-516 | A non-object is refused; an absent or null `vision` is a missing-field error; otherwise the flag is the value's truthiness. |
| Models.SupportsRoundTrip | python/copilot/types.py:510-521 | Decoding the encoding of any `ModelSupports` gives it back. |
| Models.SupportsToDict | python/copilot/types.py:518-521 | The only key is `vision`, holding the flag. |
| Models.CapabilitiesFromDict | python/copilot/types.py:531-543 | A non-object is refused; missing `supports`/`limits` are listed. Decoding succeeds iff both are present and both nested decodings succeed. A `ModelSupports` failure is passed on unchanged, and so is a `ModelLimits` failure when the supports decode. On success the parts are the nested decodings. |
| Models.CapabilitiesRoundTripIff | python/copilot/types.py:531-549 | The round trip gives back a `ModelCapabilities` iff its limits round-trip. |
| Models.CapabilitiesPropagateSupportsError | python/copilot/types.py:511-543 | With `supports` an object lacking `vision`, decoding capabilities fails with the `ModelSupports` missing-field error. |
| Models.CapabilitiesToDict | python/copilot/types.py:545-549 | The keys are exactly `supports` and `limits`, holding the nested encodings. |
| Models.PolicyFromDict | python/copilot/types.py:559-568 | A non-object is refused; missing `state`/`terms` are listed; success iff both are strings, with those values. |
| Models.PolicyRoundTrip | python/copilot/types.py:559-574 | Decoding the encoding of any `ModelPolicy` gives it back. |
| Models.PolicyToDict | python/copilot/types.py:570-574 | The keys are exactly `state` and `terms`, holding the record's values. |
| Models.BillingFromDict | python/copilot/types.py:583-589 | A non-object is refused; an absent or null `multiplier` is a missing-field error; otherwise the multiplier is kept. |
| Models.BillingRoundTrip | python/copilot/types.py:583-594 | Decoding the encoding of any `ModelBilling` gives it back. |
| Models.BillingToDict | python/copilot/types.py:591-594 | The only key is `multiplier`, holding the multiplier. |
| Models.PolicyField | python/copilot/types.py:619-620 | A falsy or absent `policy` gives no policy; a truthy one is decoded, and its failure is passed on. |
| Models.BillingField | python/copilot/types.py:621-622 | A falsy or absent `billing` gives no billing; a truthy one is decoded, and its failure is passed on. |
| Models.InfoFromDict | python/copilot/types.py:608-625 | A non-object is refused; missing ones among `id`, `name`, `capabilities` are listed. Decoding succeeds iff all three are present, the capabilities decode, `policy` and `billing` decode where truthy, and `id` and `name` are strings. The first nested failure is passed on unchanged, in the order capabilities, then policy, then billing. On success `id`, `name` and the capabilities come from the dict, and policy and billing are the results of the `policy`/`billing` rules. |
| Models.InfoToDict | python/copilot/types.py:627-636 | `id`, `name` and `capabilities` are always written; `policy` and `billing` appear iff set, holding their nested encodings; no other key appears. |
| Models.InfoRoundTripIff | python/copilot/types.py:607-636 | The round trip gives back a `ModelInfo` iff the limits inside its capabilities round-trip. |
| Models.InfoDecodesEncoding | python/copilot/types.py:607-636 | When the limits round-trip, decoding the encoding of a `ModelInfo` gives it back. |
| Enums.ParseConnectionState | go/types.go:6-11 | Parsing accepts exactly the four state names, and the state it returns carries the parsed name. |
| Enums.ConnectionStatesAgree | python/copilot/types.py:21 | The Python literal lists exactly the names the Go constants parse. Every state parses back from its name, so the names are distinct, and there are four. |
| Enums.ParseToolResultType | python/copilot/types.py:63 | Parsing accepts exactly `success`, `failure`, `rejected`, `denied`, each giving the type with that name. |
| Enums.ParsePermissionResultKind | python/copilot/types.py:138-147 | Parsing accepts exactly the four decision kinds, each giving the kind with that name. |
| Enums.DenialsAreNamedDenied | python/copilot/types.py:141-146 | A kind is a denial iff its name starts with `denied`. |
| GoWire.EncodeBinary | go/types.go:282-287 | `data`, `mimeType` and `type` are always written; `description` appears iff it is non-empty; no other key appears. |
| GoWire.BinaryEncodingInjective | go/types.go:282-287 | Two binary results with the same encoding are equal. |
| GoWire.EncodeToolResult | go/types.go:226-233 | `textResultForLlm` and `resultType` are always written. Each of `binaryResultsForLlm`, `error`, `sessionLog`, `toolTelemetry` appears iff non-empty, with its value. No other key appears. |
| GoWire.ToolResultEncodingInjective | go/types.go:226-233 | Two tool results with the same encoding are equal. |
| GoWire.EncodePermissionRequest | go/types.go:88-92 | The keys are `kind` plus `toolCallId` iff it is non-empty; the per-kind extra fields never appear. |
| GoWire.PermissionRequestEncodingIgnoresExtra | go/types.go:88-92 | Two requests encode alike iff their kind and tool call id agree, whatever their extra fields. |
| GoWire.EncodePermissionResult | go/types.go:95-98 | The keys are `kind` plus `rules` iff there are rules. |
| GoWire.PermissionResultEncodingInjective | go/types.go:95-98 | Two decisions with the same encoding are equal. |
| GoWire.EncodeAuthStatus | go/types.go:331-337 | `isAuthenticated` is always written; each string pointer appears iff it is non-nil, holding its string; no other key appears. |
| GoWire.AuthStatusEncodersAgree | go/types.go:331-337 | The Go `omitempty` encoding of an auth status is the map the Python `to_dict` writes. |
| Client.ParseCliUrl | go/client_test.go:50-181 | On success the port is in 1..65535 and the host is non-empty and colon-free. Every failure is a format or port error about the given URL. A format error happens iff, after the scheme, the text is not a number and either has no colon or has a non-number after its first colon. |
| Client.ParseNumberForm | go/client_test.go:51-65 | After the scheme, any text that reads as a Go integer (`8080`, `+8080`, `08080`, `-0`, ...) is that port on `localhost` if in range, and a port error otherwise. |
| Client.ParseBarePort | go/client_test.go:51-65 | Any integer printed alone, after any scheme, is that port on `localhost` if in range and a port error otherwise; an integer outside Go's 64-bit `int` does not parse and is a format error. |
| Client.ParseHostPort | go/client_test.go:67-181 | `host:port`, after any scheme, gives that host (`localhost` when empty) and port if the port is in range. Zero, negative and too-large ports are port errors; a port outside Go's 64-bit `int` does not parse and is a format error. |
| Client.PhraseIdentifiesError | go/client_test.go:115-314 | A panic message starts with its own error's phrase and with no other error's phrase. |
| Client.NewClient | go/client_test.go:183-314 | An address with stdio or a CLI path is refused first; then an address with a token or a login flag. Otherwise an address must parse. The client is then external, with stdio off and the parsed host and port. Without an address, construction succeeds and the token and login flag are kept as given. |
| Client.HandleToolCall | go/types.go:221-223 | An unregistered tool gives a failure result naming it. A handler's error gives a failure result carrying its message. A handler's result is sent unchanged. |
| Client.ToolCallFailsIff | go/types.go:221-233 | The result type parses as `failure` iff the tool is unknown, its handler erred, or its handler itself reported failure. |
| Client.UnsupportedToolOnTheWire | go/client_test.go:12-47 | On the wire, an unregistered tool's result has `resultType` `failure` and an `error` naming the tool, and no binary results or telemetry. |
| Client.UnsupportedErrorNamesTool | go/client_test.go:43-45 | Distinct tool names give distinct unsupported-tool errors. |
| Client.HandlePermissionRequest | go/types.go:100-102 | A handler's decision is sent unchanged. With no handler, or when the handler errs, the answer is a decision whose kind parses as a denial, with no rules. |
| Client.Bool | go/types.go:52-54 | The pointer is set and points to the given value. |
| Client.CliCommand | go/types.go:15 | The command is the given CLI path, or `copilot` when the path is empty; it is never empty. |
| Client.UsesLoggedInUser | go/types.go:42-46 | An explicit login flag decides. Without one, the logged-in user is used iff no token is given. |
| ClientTests.HostPortClient | go/client_test.go:67-113 | A `host:port` address, after any scheme, yields an external client with stdio off at that host and port when the port is in range, a port error when it is out of range, and a format error when it does not fit Go's `int`. |
| ClientTests.PortOnlyUrl | go/client_test.go:51-65 | `8080` gives `localhost`, port 8080, external server. |
| ClientTests.HostPortUrl | go/client_test.go:67-81 | `127.0.0.1:9000` gives host `127.0.0.1`, port 9000, external server. |
| ClientTests.HttpUrl | go/client_test.go:83-97 | `http://localhost:7000` gives `localhost`, port 7000, external server. |
| ClientTests.HttpsUrl | go/client_test.go:99-113 | `https://example.com:443` gives `example.com`, port 443, external server. |
| ClientTests.InvalidUrlFormat | go/client_test.go:115-130 | `invalid-url` panics with a message containing `Invalid CLIUrl format`. |
| ClientTests.PortTooHigh | go/client_test.go:132-147 | `localhost:99999` panics with a message containing `Invalid port in CLIUrl`. |
| ClientTests.PortZero | go/client_test.go:149-164 | `localhost:0` panics with a message containing `Invalid port in CLIUrl`. |
| ClientTests.PortNegative | go/client_test.go:166-181 | `localhost:-1` panics with a message containing `Invalid port in CLIUrl`. |
| ClientTests.UrlExcludesLocalProcess | go/client_test.go:183-217 | An address with `UseStdio` or with a CLI path panics with `CLIUrl is mutually exclusive`. |
| ClientTests.UrlMeansExternal | go/client_test.go:219-237 | With an address, stdio is off and the client uses an external server. |
| ClientTests.AuthOptionsKept | go/client_test.go:240-281 | Without an address, the token is kept, the login flag stays unset by default, and an explicit false or true is kept. |
| ClientTests.UrlExcludesAuth | go/client_test.go:283-314 | An address with a token, or with an explicit login flag (even false), panics with the auth-vs-address phrase. |
| ClientTests.MissingTool | go/client_test.go:12-47 | Calling `missing_tool` when it is not registered gives `resultType` `failure` and error `tool 'missing_tool' not supported`. |

## Left out

- `client.go` is not part of this model. The following are reconstructions chosen to satisfy every assertion of `go/client_test.go`:
  - the address parser;
  - the order of the checks in `NewClient`;
  - the panic message texts beyond the phrases the tests match;
  - the `textResultForLlm` of the unregistered-tool result;
  - the denial kind sent when a permission handler is missing or fails;
  - the new client's connection state, `Disconnected`.

  Where the tests are silent, the model follows the rules named in the next three items.
- Client.NewClient: the options are kept as given. `CLIPath` is not replaced by its default `copilot`, and `UseLoggedInUser` is not set to false when a token is given. Where `client.go` applies these defaults is not known; `Client.CliCommand` and `Client.UsesLoggedInUser` state the defaults themselves.
- Client.ParseCliUrl: the split between a format error and a port error is tested only for `invalid-url` (format) and for `99999`, `0` and `-1` (port). For other inputs the model follows the rule that a text that is not a number is a format error, and a number out of range is a port error. So `localhost:80:90` is a format error, because `80:90` is not a number. A number outside Go's 64-bit `int`, such as `localhost:18446744073709551616`, is not a number to `strconv.Atoi`, so it is a format error too.
- Client.PhraseIdentifiesError: the tests match a phrase anywhere in the message. The lemma speaks about the start of the message only. A message that embeds a URL can contain another error's phrase later, as in a port error for a URL that itself contains `Invalid CLIUrl format`.
- Decoders: Python's `str()`, `int()` and `float()` coercion of values of another kind is not modelled. A value of the wrong JSON kind is a `WrongKind` error instead. `bool()` and `if x` are modelled exactly, by Python truthiness (`Json.Truthy`). Some fields are passed through without any conversion or check: the auth status's optional strings, `SessionMetadata.summary`, the three `ModelVisionLimits` fields and the two `ModelLimits` token counts. For these the model adds a kind check that Python does not make, and a value of another kind is a `WrongKind` error that Python would not raise.
- Responses.AuthStatusFromDict: fails when `authType`, `host`, `login` or `statusMessage` is not a string; Python keeps such a value unchanged.
- Responses.SessionMetadataFromDict: fails when `summary` is not a string; Python keeps such a value unchanged.
- Models.VisionFromDict: fails when `supported_media_types` is not a list of strings or a count is not an integer; Python keeps such values unchanged.
- Models.LimitsFromDict: fails when a token count is not an integer; Python keeps such a value unchanged.
- Decoders: the `ValueError` message texts, which print Python reprs, are replaced by the structured `DecodeError`. It names the type and lists the missing keys in the order the source checks them.
- `ModelBilling.multiplier` is a float. It is kept as an opaque non-null JSON value, so no float arithmetic or `float()` conversion is modelled.
- `Decimal.Atoi` assumes a 64-bit platform: like `strconv.Atoi` there, it refuses values outside -2^63 .. 2^63-1. On a 32-bit platform Go's `int` is narrower, and that narrower range is not modelled.
- Go nil slices and maps are not told apart from empty ones. `omitempty` treats them alike.
- Decoding on the Go side (`encoding/json` unmarshalling, with its case-insensitive key matching) is not modelled. Only encoding is.
- Process lifecycle, JSON-RPC correlation, sessions, event streaming and auto-restart are left out. Their code is not part of this model, and what makes them hard is concurrency and I/O.
- The client options other than the five the validation reads (`Port`, `LogLevel`, `AutoStart`, environment, ...) are left out. So is a nil options pointer.
- Without an address, `UseStdio` is kept as given. The defaulting of an unset stdio flag happens in `client.go`, which is not part of this model.
- The `TypedDict` configuration types and Go configuration structs are left out. They are pass-through payloads without logic.
- The Python end-to-end test harness (`python/e2e/`) is left out. It is process and HTTP plumbing.

=== FILE: client.dfy ===
/** Construction of the Go client from its options, and the two bridges from
    server-initiated calls to caller-supplied handlers.

    Construction validates the options before anything is started: a server
    address (`CLIUrl`) excludes spawning a local process (`UseStdio`,
    `CLIPath`) and excludes the authentication options, which only a spawned
    process receives; the address itself is parsed into host and port, with
    the port range checked. Every violation is a configuration error with a
    stable message. */
module Client {
  import opened Results
  import opened Json
  import opened Decimal
  import opened Enums
  import GoWire

  // ------------------------------------------------------------- errors

  datatype ConfigError =
    | InvalidFormat(url: string)
    | InvalidPort(url: string)
    | ExclusiveWithLocalProcess
    | AuthWithExternalServer
  {
    /** The phrase callers match in the panic message to tell the errors
        apart. */
    function Phrase(): string
    {
      match this
      case InvalidFormat(_) => "Invalid CLIUrl format"
      case InvalidPort(_) => "Invalid port in CLIUrl"
      case ExclusiveWithLocalProcess => "CLIUrl is mutually exclusive"
      case AuthWithExternalServer => "GithubToken and UseLoggedInUser cannot be used with CLIUrl"
    }

    /** The panic message: the phrase, then the details. */
    function Message(): string
    {
      match this
      case InvalidFormat(url) =>
        Phrase() + ": " + url + ". Expected 'host:port', 'http://host:port', or 'port'"
      case InvalidPort(url) => Phrase() + ": " + url
      case ExclusiveWithLocalProcess => Phrase() + " with UseStdio and CLIPath"
      case AuthWithExternalServer => Phrase() + " (external server manages its own auth)"
    }
  }

  /** A panic message starts with its own error's phrase and with no other
      error's phrase, so the start of the message identifies the error. */
  lemma PhraseIdentifiesError(e: ConfigError, f: ConfigError)
    ensures f.Phrase() <= e.Message() <==> f.Phrase() == e.Phrase()
  {
    PhraseLetters(e);
    PhraseLetters(f);
    var m := e.Message();
    var p := f.Phrase();
    if p <= m {
      assert p[0] == m[0] == e.Phrase()[0];
      assert p[8] == m[8] == e.Phrase()[8];
    }
  }

  /** The first and ninth letters of each phrase, which tell the phrases apart. */
  function Letters(e: ConfigError): (char, char)
  {
    match e
    case InvalidFormat(_) => ('I', 'C')
    case InvalidPort(_) => ('I', 'p')
    case ExclusiveWithLocalProcess => ('C', 's')
    case AuthWithExternalServer => ('G', 'k')
  }

  lemma PhraseLetters(e: ConfigError)
    ensures e.Phrase() <= e.Message()
    ensures |e.Phrase()| > 8 && (e.Phrase()[0], e.Phrase()[8]) == Letters(e)
  {
    MessageStartsWithPhrase(e);
    if e.AuthWithExternalServer? {
      AuthPhraseLetters();
    }
  }

  /** The verifier does not read single characters out of a literal this
      long; the same literal written as two shorter pieces lets it. */
  lemma AuthPhraseLetters()
    ensures |AuthWithExternalServer.Phrase()| > 8
    ensures AuthWithExternalServer.Phrase()[0] == 'G' && AuthWithExternalServer.Phrase()[8] == 'k'
  {
    assert AuthWithExternalServer.Phrase() == "GithubToken and UseLoggedInUser" + " cannot be used with CLIUrl";
  }

  lemma MessageStartsWithPhrase(e: ConfigError)
    ensures e.Phrase() <= e.Message()
  {
  }

  // --------------------------------------------------------- CLIUrl parse

  datatype Endpoint = Endpoint(host: string, port: int)

  const DefaultHost: string := "localhost"
  const MaxPort: int := 65535

  predicate ValidPort(p: int)
  {
    1 <= p <= MaxPort
  }

  /** Drops one leading `https://` or `http://`. */
  function StripScheme(url: string): (rest: string)
    ensures |rest| <= |url| && rest == url[|url| - |rest|..]
  {
    if |url| >= 8 && url[..8] == "https://" then url[8..]
    else if |url| >= 7 && url[..7] == "http://" then url[7..]
    else url
  }

  /** Splits at the first `:`, or None when there is none. */
  function CutAtColon(s: string): (r: Option<(string, string)>)
    ensures r.None? <==> ':' !in s
    ensures r.Some? ==> s == r.value.0 + ":" + r.value.1 && ':' !in r.value.0
  {
    if s == [] then None
    else if s[0] == ':' then Some(([], s[1..]))
    else match CutAtColon(s[1..])
      case None => None
      case Some((before, after)) => Some(([s[0]] + before, after))
  }

  /** The address forms `port`, `host:port`, `http://host:port` and
      `https://host:port`. After the scheme, a number alone is a port on the
      default host; otherwise the text up to the first colon is the host
      (the default host when empty) and the text after it must be a number.
      A text that has no number where the port belongs is a format error; a
      number out of range is a port error. */
  function ParseCliUrl(url: string): (r: Result<Endpoint, ConfigError>)
    ensures r.Success? ==> ValidPort(r.value.port) && r.value.host != "" && ':' !in r.value.host
    ensures r.Failure? ==> r.error == InvalidFormat(url) || r.error == InvalidPort(url)
    ensures r == Failure(InvalidFormat(url)) <==>
              && Atoi(StripScheme(url)).None?
              && (':' !in StripScheme(url) || Atoi(CutAtColon(StripScheme(url)).value.1).None?)
  {
    var rest := StripScheme(url);
    match Atoi(rest)
    case Some(port) =>
      if ValidPort(port) then Success(Endpoint(DefaultHost, port)) else Failure(InvalidPort(url))
    case None =>
      match CutAtColon(rest)
      case None => Failure(InvalidFormat(url))
      case Some((before, after)) =>
        var host := if before == "" then DefaultHost else before;
        match Atoi(after)
        case Some(port) => if ValidPort(port) then Success(Endpoint(host, port)) else Failure(InvalidPort(url))
        case None => Failure(InvalidFormat(url))
  }

  const Schemes: set<string> := {"", "http://", "https://"}

  /** The text starts with a scheme `StripScheme` removes. */
  predicate HasScheme(s: string)
  {
    (|s| >= 8 && s[..8] == "https://") || (|s| >= 7 && s[..7] == "http://")
  }

  lemma StripSchemeOfScheme(scheme: string, rest: string)
    requires scheme in Schemes
    requires scheme == "" ==> !HasScheme(rest)
    ensures StripScheme(scheme + rest) == rest
  {
    var url := scheme + rest;
    if scheme == "https://" {
      assert url[..8] == scheme;
    } else if scheme == "http://" {
      assert url[..7] == scheme;
      assert url[4] != "https://"[4];
    }
  }

  /** A port text, signed or not, never begins a scheme's `//`. */
  lemma HostPortHasNoScheme(host: string, n: int)
    requires ':' !in host
    ensures !HasScheme(host + ":" + IntToString(n))
  {
    var rest := host + ":" + IntToString(n);
    var port := IntToString(n);
    assert port[0] == '-' || IsDigit(port[0]);
    assert rest[|host|] == ':';
    assert forall i :: 0 <= i < |host| ==> rest[i] == host[i];
    if |rest| >= 7 {
      if |host| < 4 {
        assert rest[|host|] != "http://"[|host|];
      } else if |host| == 4 {
        assert rest[5] == port[0] != "http://"[5];
      } else {
        assert rest[4] == host[4] != "http://"[4];
      }
    }
    if |rest| >= 8 {
      if |host| < 5 {
        assert rest[|host|] != "https://"[|host|];
      } else if |host| == 5 {
        assert rest[6] == port[0] != "https://"[6];
      } else {
        assert rest[5] == host[5] != "https://"[5];
      }
    }
  }

  /** Once the scheme is gone, a text that reads as a number, in any of the
      forms `strconv.Atoi` takes (`8080`, `+8080`, `08080`, `-0`, ...), is a
      port on the default host when in range and a port error otherwise. */
  lemma ParseNumberForm(url: string)
    requires Atoi(StripScheme(url)).Some?
    ensures var p := Atoi(StripScheme(url)).value;
            ParseCliUrl(url) == if ValidPort(p) then Success(Endpoint(DefaultHost, p)) else Failure(InvalidPort(url))
  {
  }

  /** Any integer printed alone, after an optional scheme, is a port on the
      default host when in range and a port error otherwise; one too large
      for Go's `int` does not parse as a number, so it is a format error. */
  lemma {:induction false} ParseBarePort(scheme: string, n: int)
    requires scheme in Schemes
    ensures var url := scheme + IntToString(n);
            ParseCliUrl(url) ==
            if !InIntRange(n) then Failure(InvalidFormat(url))
            else if ValidPort(n) then Success(Endpoint(DefaultHost, n))
            else Failure(InvalidPort(url))
  {
    var digits := IntToString(n);
    var url := scheme + digits;
    assert !HasScheme(digits) by {
      assert digits[0] == '-' || IsDigit(digits[0]);
    }
    StripSchemeOfScheme(scheme, digits);
    AtoiOfIntToString(n);
    if InIntRange(n) {
      ParseNumberForm(url);
    } else {
      NoColonInIntToString(n);
    }
  }

  lemma NoColonInIntToString(n: int)
    ensures ':' !in IntToString(n)
  {
    var s := IntToString(n);
    assert forall i :: 0 <= i < |s| ==> s[i] == '-' || IsDigit(s[i]) by {
      if n < 0 {
        assert forall i :: 1 <= i < |s| ==> s[i] == NatToDigits(-n)[i - 1];
      }
    }
  }

  /** `host:port` after an optional scheme names that host (the default
      host when empty) and that port when it is in range, and is a port
      error otherwise: zero, negative and too-large ports alike. */
  lemma {:induction false} ParseHostPort(scheme: string, host: string, n: int)
    requires scheme in Schemes
    requires ':' !in host
    ensures var url := scheme + host + ":" + IntToString(n);
            ParseCliUrl(url) ==
            if !InIntRange(n) then Failure(InvalidFormat(url))
            else if ValidPort(n) then Success(Endpoint(if host == "" then DefaultHost else host, n))
            else Failure(InvalidPort(url))
  {
    var url := scheme + host + ":" + IntToString(n);
    var rest := host + ":" + IntToString(n);
    assert url == scheme + rest;
    HostPortHasNoScheme(host, n);
    StripSchemeOfScheme(scheme, rest);
    assert rest[|host|] == ':';
    CutAtColonSplitsFirst(host, IntToString(n));
    AtoiOfIntToString(n);
    ParseColonForm(url, host, IntToString(n));
  }

  /** Once the scheme is gone, a text with a colon is never a bare number:
      the text before the first colon is the host and the text after it must
      be a number, or the address is malformed. */
  lemma ParseColonForm(url: string, host: string, port: string)
    requires StripScheme(url) == host + ":" + port
    requires ':' !in host
    ensures ParseCliUrl(url) ==
            (match Atoi(port)
             case Some(p) =>
               if ValidPort(p) then Success(Endpoint(if host == "" then DefaultHost else host, p))
               else Failure(InvalidPort(url))
             case None => Failure(InvalidFormat(url)))
  {
    var rest := host + ":" + port;
    assert rest[|host|] == ':';
    ColonIsNotANumber(rest);
    CutAtColonSplitsFirst(host, port);
  }

  lemma {:induction false} CutAtColonSplitsFirst(before: string, after: string)
    requires ':' !in before
    ensures CutAtColon(before + ":" + after) == Some((before, after))
  {
    var s := before + ":" + after;
    if before != [] {
      assert s[0] == before[0];
      assert s[1..] == before[1..] + ":" + after;
      CutAtColonSplitsFirst(before[1..], after);
      assert [before[0]] + before[1..] == before;
    }
  }

  // ---------------------------------------------------- client construction

  /** The options the validation reads; the others are passed through. */
  datatype ClientOptions = ClientOptions(
    cliPath: string,
    useStdio: bool,
    cliUrl: string,
    githubToken: string,
    useLoggedInUser: Option<bool>)

  /** Options with every field at its zero value. */
  const NoOptions: ClientOptions := ClientOptions("", false, "", "", None)

  /** A pointer to `v`, as the options' optional flags take it. */
  function Bool(v: bool): (r: Option<bool>)
    ensures r.Some? && r.value == v
  {
    Some(v)
  }

  /** The executable the options name; an empty path means `copilot`. */
  const DefaultCliPath := "copilot"

  function CliCommand(o: ClientOptions): (r: string)
    ensures r != ""
    ensures o.cliPath != "" ==> r == o.cliPath
    ensures o.cliPath == "" ==> r == DefaultCliPath
  {
    if o.cliPath == "" then DefaultCliPath else o.cliPath
  }

  /** Whether the logged-in user's credentials are used: as set when the flag
      is given, and otherwise only when no token is. */
  function UsesLoggedInUser(o: ClientOptions): (r: bool)
    ensures o.useLoggedInUser.Some? ==> r == o.useLoggedInUser.value
    ensures o.useLoggedInUser.None? ==> (r <==> o.githubToken == "")
  {
    match o.useLoggedInUser
    case Some(b) => b
    case None => o.githubToken == ""
  }

  datatype Client = Client(
    options: ClientOptions,
    actualHost: string,
    actualPort: int,
    isExternalServer: bool,
    state: ConnectionState)

  /** The client the options describe, or the configuration error that
      construction panics with. The exclusivity of address and local process
      is checked first, then the authentication options, then the address. */
  function NewClient(o: ClientOptions): (r: Result<Client, ConfigError>)
    ensures o.cliUrl == "" ==> r.Success?
    ensures o.cliUrl != "" && (o.useStdio || o.cliPath != "") ==> r == Failure(ExclusiveWithLocalProcess)
    ensures o.cliUrl != "" && !o.useStdio && o.cliPath == "" && (o.githubToken != "" || o.useLoggedInUser.Some?) ==>
              r == Failure(AuthWithExternalServer)
    ensures o.cliUrl != "" && !o.useStdio && o.cliPath == "" && o.githubToken == "" && o.useLoggedInUser.None? ==>
              (r.Success? <==> ParseCliUrl(o.cliUrl).Success?)
              && (r.Failure? ==> r.error == ParseCliUrl(o.cliUrl).error)
    ensures r.Success? ==>
              && r.value.state == Disconnected
              && r.value.isExternalServer == (o.cliUrl != "")
              && r.value.options.githubToken == o.githubToken
              && r.value.options.useLoggedInUser == o.useLoggedInUser
              && r.value.options.cliUrl == o.cliUrl
              && r.value.options.cliPath == o.cliPath
    ensures r.Success? && o.cliUrl != "" ==>
              && !r.value.options.useStdio
              && ParseCliUrl(o.cliUrl) == Success(Endpoint(r.value.actualHost, r.value.actualPort))
    ensures r.Success? && o.cliUrl == "" ==>
              r.value.actualHost == DefaultHost && r.value.options.useStdio == o.useStdio
  {
    if o.cliUrl != "" && (o.useStdio || o.cliPath != "") then Failure(ExclusiveWithLocalProcess)
    else if o.cliUrl != "" && (o.githubToken != "" || o.useLoggedInUser.Some?) then Failure(AuthWithExternalServer)
    else if o.cliUrl != "" then
      var endpoint :- ParseCliUrl(o.cliUrl);
      Success(Client(o.(useStdio := false), endpoint.host, endpoint.port, true, Disconnected))
    else
      Success(Client(o, DefaultHost, 0, false, Disconnected))
  }

  // ------------------------------------------------------ tool dispatch

  datatype ToolInvocation = ToolInvocation(sessionId: string, toolCallId: string, toolName: string, arguments: Json)

  /** What a caller-supplied handler did: returned a value or failed. */
  datatype HandlerOutcome<T> = Returned(value: T) | Raised(message: string)

  type ToolHandler = ToolInvocation -> HandlerOutcome<GoWire.ToolResult>

  function UnsupportedToolError(name: string): string
  {
    "tool '" + name + "' not supported"
  }

  /** A failure result carrying `error`, with the text shown to the model. */
  function FailureResult(text: string, error: string): (r: GoWire.ToolResult)
  {
    GoWire.ToolResult(text, [], ToolFailure.Name(), error, "", map[])
  }

  /** The result sent back for a tool call: an unregistered name is an
      ordinary failure result naming the tool, a handler's error becomes a
      failure result carrying its message, and a handler's value is sent
      as it is. */
  function HandleToolCall(tools: map<string, ToolHandler>, inv: ToolInvocation): (r: GoWire.ToolResult)
    ensures inv.toolName !in tools ==>
              r.resultType == "failure" && r.error == "tool '" + inv.toolName + "' not supported"
    ensures inv.toolName in tools && tools[inv.toolName](inv).Raised? ==>
              r.resultType == "failure" && r.error == tools[inv.toolName](inv).message
    ensures inv.toolName in tools && tools[inv.toolName](inv).Returned? ==> r == tools[inv.toolName](inv).value
  {
    if inv.toolName !in tools then
      FailureResult("Tool '" + inv.toolName + "' is not supported by this client instance.",
                    UnsupportedToolError(inv.toolName))
    else
      match tools[inv.toolName](inv)
      case Returned(result) => result
      case Raised(message) =>
        FailureResult("Invoking this tool produced an error. Detailed information is not available.", message)
  }

  /** A tool call fails exactly when the tool is unknown, its handler
      raised, or its handler itself reported failure. */
  lemma ToolCallFailsIff(tools: map<string, ToolHandler>, inv: ToolInvocation)
    ensures ParseToolResultType(HandleToolCall(tools, inv).resultType) == Some(ToolFailure) <==>
              || inv.toolName !in tools
              || tools[inv.toolName](inv).Raised?
              || tools[inv.toolName](inv).value.resultType == "failure"
  {
  }

  /** On the wire, the result for an unregistered tool is an object whose
      `resultType` is `failure` and whose `error` names the tool. */
  lemma UnsupportedToolOnTheWire(tools: map<string, ToolHandler>, inv: ToolInvocation)
    requires inv.toolName !in tools
    ensures var wire := GoWire.EncodeToolResult(HandleToolCall(tools, inv));
            && Get(wire, "resultType") == Some(JStr("failure"))
            && Get(wire, "error") == Some(JStr("tool '" + inv.toolName + "' not supported"))
            && "binaryResultsForLlm" !in wire && "toolTelemetry" !in wire
  {
  }

  /** Distinct unregistered tools get distinct error texts. */
  lemma UnsupportedErrorNamesTool(a: string, b: string)
    requires UnsupportedToolError(a) == UnsupportedToolError(b)
    ensures a == b
  {
    var ea := UnsupportedToolError(a);
    var eb := UnsupportedToolError(b);
    assert |a| == |b|;
    assert a == ea[6..6 + |a|];
    assert b == eb[6..6 + |b|];
  }

  // ------------------------------------------------- permission dispatch

  type PermissionHandler = (GoWire.PermissionRequest, string) -> HandlerOutcome<GoWire.PermissionRequestResult>

  /** The decision sent when no decision could be obtained. */
  const DefaultDenial: GoWire.PermissionRequestResult := GoWire.PermissionRequestResult(DeniedNoApprovalRule.Name(), [])

  /** A permission request is answered by the session's handler; with no
      handler, or when the handler fails, the request is denied rather than
      left unanswered. */
  function HandlePermissionRequest(handler: Option<PermissionHandler>, req: GoWire.PermissionRequest, sessionId: string)
    : (r: GoWire.PermissionRequestResult)
    ensures handler.Some? && handler.value(req, sessionId).Returned? ==> r == handler.value(req, sessionId).value
    ensures handler.None? || handler.value(req, sessionId).Raised? ==>
              && ParsePermissionResultKind(r.kind).Some?
              && ParsePermissionResultKind(r.kind).value.IsDenial()
              && r.rules == []
  {
    match handler
    case None => DefaultDenial
    case Some(h) =>
      match h(req, sessionId)
      case Returned(result) => result
      case Raised(_) => DefaultDenial
  }
}

=== FILE: client_tests.dfy ===
/** The Go client's unit tests, each stated as a fact about the model: the
    address forms it accepts, the ports it refuses, the option combinations
    it panics on, the authentication options it keeps, and the result for a
    tool nobody registered. */
module ClientTests {
  import opened Results
  import opened Json
  import opened Decimal
  import opened Client

  /** Options that only set the server address. */
  function WithUrl(url: string): (o: ClientOptions)
    ensures o.cliUrl == url && !o.useStdio && o.cliPath == ""
    ensures o.githubToken == "" && o.useLoggedInUser.None?
  {
    NoOptions.(cliUrl := url)
  }

  /** Construction panics, and the panic message contains `phrase`. */
  predicate PanicsWith(o: ClientOptions, phrase: string)
  {
    NewClient(o).Failure? && phrase <= NewClient(o).error.Message()
  }

  // -------------------------------------------------------- address forms

  /** An address of the form `host:port`, after an optional scheme, gives
      an external client at that host and port, or a port error; a port
      too large for Go's `int` is a format error. */
  lemma {:induction false} HostPortClient(scheme: string, host: string, n: int)
    requires scheme in Schemes && ':' !in host && host != ""
    ensures var url := scheme + host + ":" + IntToString(n);
            if !InIntRange(n) then
              NewClient(WithUrl(url)) == Failure(InvalidFormat(url))
            else if ValidPort(n) then
              && NewClient(WithUrl(url)).Success?
              && var c := NewClient(WithUrl(url)).value;
                 c.actualHost == host && c.actualPort == n && c.isExternalServer && !c.options.useStdio
            else
              NewClient(WithUrl(url)) == Failure(InvalidPort(url))
  {
    ParseHostPort(scheme, host, n);
  }

  /** `8080`: a bare port on localhost, and an external server. */
  lemma PortOnlyUrl()
    ensures NewClient(WithUrl("8080")).Success?
    ensures var c := NewClient(WithUrl("8080")).value;
            c.actualPort == 8080 && c.actualHost == "localhost" && c.isExternalServer
  {
    assert "" + IntToString(8080) == "8080";
    ParseBarePort("", 8080);
  }

  /** `127.0.0.1:9000`: host and port as written. */
  lemma HostPortUrl()
    ensures NewClient(WithUrl("127.0.0.1:9000")).Success?
    ensures var c := NewClient(WithUrl("127.0.0.1:9000")).value;
            c.actualPort == 9000 && c.actualHost == "127.0.0.1" && c.isExternalServer
  {
    assert "" + "127.0.0.1" + ":" + IntToString(9000) == "127.0.0.1:9000";
    HostPortClient("", "127.0.0.1", 9000);
  }

  /** `http://localhost:7000`: the scheme is dropped. */
  lemma HttpUrl()
    ensures NewClient(WithUrl("http://localhost:7000")).Success?
    ensures var c := NewClient(WithUrl("http://localhost:7000")).value;
            c.actualPort == 7000 && c.actualHost == "localhost" && c.isExternalServer
  {
    assert "http://" + "localhost" + ":" + IntToString(7000) == "http://localhost:7000";
    HostPortClient("http://", "localhost", 7000);
  }

  /** `https://example.com:443`: the scheme is dropped. */
  lemma HttpsUrl()
    ensures NewClient(WithUrl("https://example.com:443")).Success?
    ensures var c := NewClient(WithUrl("https://example.com:443")).value;
            c.actualPort == 443 && c.actualHost == "example.com" && c.isExternalServer
  {
    assert "https://" + "example.com" + ":" + IntToString(443) == "https://example.com:443";
    HostPortClient("https://", "example.com", 443);
  }

  // --------------------------------------------------------- refusals

  /** `invalid-url` has neither a colon nor digits alone. */
  lemma InvalidUrlFormat()
    ensures PanicsWith(WithUrl("invalid-url"), "Invalid CLIUrl format")
  {
    var url := "invalid-url";
    assert StripScheme(url) == url by {
      assert url[..7] != "http://" by { assert url[0] != 'h'; }
      assert url[..8] != "https://" by { assert url[0] != 'h'; }
    }
    assert !AllDigits(url) by { assert !IsDigit(url[0]); }
    assert ':' !in url;
  }

  /** `localhost:99999`: above the largest port. */
  lemma PortTooHigh()
    ensures PanicsWith(WithUrl("localhost:99999"), "Invalid port in CLIUrl")
  {
    assert "" + "localhost" + ":" + IntToString(99999) == "localhost:99999";
    HostPortClient("", "localhost", 99999);
  }

  /** `localhost:0`: port zero is refused. */
  lemma PortZero()
    ensures PanicsWith(WithUrl("localhost:0"), "Invalid port in CLIUrl")
  {
    assert "" + "localhost" + ":" + IntToString(0) == "localhost:0";
    HostPortClient("", "localhost", 0);
  }

  /** `localhost:-1`: a negative port parses as a number but is refused. */
  lemma PortNegative()
    ensures PanicsWith(WithUrl("localhost:-1"), "Invalid port in CLIUrl")
  {
    assert "" + "localhost" + ":" + IntToString(-1) == "localhost:-1";
    HostPortClient("", "localhost", -1);
  }

  /** An address together with a local process is refused. */
  lemma UrlExcludesLocalProcess()
    ensures PanicsWith(WithUrl("localhost:8080").(useStdio := true), "CLIUrl is mutually exclusive")
    ensures PanicsWith(WithUrl("localhost:8080").(cliPath := "/path/to/cli"), "CLIUrl is mutually exclusive")
  {
  }

  /** An address together with authentication options is refused. */
  lemma UrlExcludesAuth()
    ensures PanicsWith(WithUrl("localhost:8080").(githubToken := "gho_test_token"),
                       "GithubToken and UseLoggedInUser cannot be used with CLIUrl")
    ensures PanicsWith(WithUrl("localhost:8080").(useLoggedInUser := Bool(false)),
                       "GithubToken and UseLoggedInUser cannot be used with CLIUrl")
  {
    assert AuthWithExternalServer.Phrase() == "GithubToken and UseLoggedInUser cannot be used with CLIUrl";
    MessageStartsWithPhrase(AuthWithExternalServer);
  }

  // ----------------------------------------------- accepted option sets

  /** With an address, the client does not use stdio and talks to an
      external server. */
  lemma UrlMeansExternal()
    ensures NewClient(WithUrl("8080")).Success? && !NewClient(WithUrl("8080")).value.options.useStdio
    ensures NewClient(WithUrl("localhost:8080")).Success?
            && NewClient(WithUrl("localhost:8080")).value.isExternalServer
  {
    PortOnlyUrl();
    assert "" + "localhost" + ":" + IntToString(8080) == "localhost:8080";
    HostPortClient("", "localhost", 8080);
  }

  /** Without an address the authentication options are kept as given: a
      token, an unset flag, and an explicit false or true. */
  lemma AuthOptionsKept()
    ensures NewClient(NoOptions.(githubToken := "gho_test_token")).Success?
            && NewClient(NoOptions.(githubToken := "gho_test_token")).value.options.githubToken == "gho_test_token"
    ensures NewClient(NoOptions).Success? && NewClient(NoOptions).value.options.useLoggedInUser.None?
    ensures NewClient(NoOptions.(useLoggedInUser := Bool(false))).Success?
            && NewClient(NoOptions.(useLoggedInUser := Bool(false))).value.options.useLoggedInUser == Some(false)
    ensures var o := NoOptions.(githubToken := "gho_test_token", useLoggedInUser := Bool(true));
            NewClient(o).Success? && NewClient(o).value.options.useLoggedInUser == Some(true)
  {
  }

  // ------------------------------------------------------- tool dispatch

  /** A call of `missing_tool` with no tools registered gets a failure
      result naming it. */
  lemma MissingTool(tools: map<string, ToolHandler>)
    requires "missing_tool" !in tools
    ensures var r := HandleToolCall(tools, ToolInvocation("s", "123", "missing_tool", JObj(map[])));
            r.resultType == "failure" && r.error == "tool 'missing_tool' not supported"
  {
    var inv := ToolInvocation("s", "123", "missing_tool", JObj(map[]));
    var r := HandleToolCall(tools, inv);
    assert r.error == "tool '" + inv.toolName + "' not supported";
    assert "tool '" + "missing_tool" + "' not supported" == "tool 'missing_tool' not supported";
  }
}

=== FILE: decimal.dfy ===
/** Decimal digit strings: the value of an ASCII digit string, the digit
    string of a natural number, and Go's `strconv.Atoi` on base-10 input
    (an optional `+` or `-` followed by at least one digit). */
module Decimal {
  import opened Results

  predicate IsDigit(c: char)
  {
    '0' <= c <= '9'
  }

  predicate AllDigits(s: string)
  {
    forall i :: 0 <= i < |s| ==> IsDigit(s[i])
  }

  /** The value of a digit string, most significant digit first. */
  function DigitsValue(s: string): nat
    requires AllDigits(s)
  {
    if s == [] then 0 else DigitsValue(s[..|s| - 1]) * 10 + (s[|s| - 1] as int - '0' as int)
  }

  function DigitChar(d: nat): (c: char)
    requires d < 10
    ensures IsDigit(c) && c as int - '0' as int == d
  {
    ('0' as int + d) as char
  }

  /** The shortest digit string of `n`. */
  function NatToDigits(n: nat): (s: string)
    ensures s != [] && AllDigits(s)
    ensures |s| > 1 ==> s[0] != '0'
  {
    if n < 10 then [DigitChar(n)] else NatToDigits(n / 10) + [DigitChar(n % 10)]
  }

  lemma {:induction false} DigitsOfNat(n: nat)
    ensures DigitsValue(NatToDigits(n)) == n
  {
    var s := NatToDigits(n);
    if n >= 10 {
      DigitsOfNat(n / 10);
      assert s[..|s| - 1] == NatToDigits(n / 10);
    }
  }

  /** Go's `int` on a 64-bit platform. */
  const MinInt: int := -0x8000_0000_0000_0000
  const MaxInt: int := 0x7fff_ffff_ffff_ffff

  predicate InIntRange(i: int)
  {
    MinInt <= i <= MaxInt
  }

  /** The decimal forms `strconv.Atoi` reads: at least one digit, after an
      optional `+` or `-`. */
  predicate IsDecimal(s: string)
  {
    (s != [] && AllDigits(s)) || (|s| >= 2 && (s[0] == '+' || s[0] == '-') && AllDigits(s[1..]))
  }

  /** The value a decimal form denotes, with no bound on its size. */
  function DecimalValue(s: string): int
    requires IsDecimal(s)
  {
    if s[0] == '-' then -(DigitsValue(s[1..]) as int)
    else if s[0] == '+' then DigitsValue(s[1..])
    else DigitsValue(s)
  }

  /** Go's `strconv.Atoi`: a signed decimal that fits in an `int`, or None
      when the string is not one or its value is out of range. */
  function Atoi(s: string): (r: Option<int>)
    ensures r.Some? <==> IsDecimal(s) && InIntRange(DecimalValue(s))
    ensures r.Some? ==> InIntRange(r.value) && r.value == DecimalValue(s)
  {
    if IsDecimal(s) && InIntRange(DecimalValue(s)) then Some(DecimalValue(s)) else None
  }

  /** The text `strconv.Itoa` would print: a `-` before negative values. */
  function IntToString(i: int): (s: string)
  {
    if i < 0 then "-" + NatToDigits(-i) else NatToDigits(i)
  }

  /** The printed form of any integer is a decimal form with that value. */
  lemma DecimalOfIntToString(i: int)
    ensures IsDecimal(IntToString(i)) && DecimalValue(IntToString(i)) == i
  {
    if i < 0 {
      var d := NatToDigits(-i);
      assert IntToString(i)[1..] == d;
      DigitsOfNat(-i);
    } else {
      DigitsOfNat(i);
    }
  }

  /** `Atoi` reads back what `Itoa` prints, exactly for the values in range. */
  lemma AtoiOfIntToString(i: int)
    ensures Atoi(IntToString(i)) == if InIntRange(i) then Some(i) else None
  {
    DecimalOfIntToString(i);
  }

  /** A text holding a colon is not a number. */
  lemma ColonIsNotANumber(s: string)
    requires ':' in s
    ensures Atoi(s).None?
  {
  }
}

=== FILE: enums.dfy ===
/** The closed string enumerations of the protocol: the client's connection
    state, a tool result's type, and the kinds of a permission decision. Each
    has its wire name and a parser that accepts exactly the wire names. */
module Enums {
  import opened Results

  // ----------------------------------------------------- connection state

  datatype ConnectionState = Disconnected | Connecting | Connected | Errored {
    function Name(): string
    {
      match this
      case Disconnected => "disconnected"
      case Connecting => "connecting"
      case Connected => "connected"
      case Errored => "error"
    }
  }

  /** The literal type the Python client declares for the same state. */
  const PythonConnectionStates: set<string> := {"disconnected", "connecting", "connected", "error"}

  function ParseConnectionState(s: string): (r: Option<ConnectionState>)
    ensures r.Some? ==> r.value.Name() == s
    ensures r.None? ==> forall c: ConnectionState :: c.Name() != s
  {
    if s == "disconnected" then Some(Disconnected)
    else if s == "connecting" then Some(Connecting)
    else if s == "connected" then Some(Connected)
    else if s == "error" then Some(Errored)
    else None
  }

  /** The Go constants and the Python literal name the same four states,
      and no two states share a name. */
  lemma ConnectionStatesAgree()
    ensures forall s :: s in PythonConnectionStates <==> ParseConnectionState(s).Some?
    ensures forall c: ConnectionState :: ParseConnectionState(c.Name()) == Some(c)
    ensures |PythonConnectionStates| == 4
  {
  }

  // ------------------------------------------------------ tool result type

  datatype ToolResultType = ToolSuccess | ToolFailure | ToolRejected | ToolDenied {
    function Name(): string
    {
      match this
      case ToolSuccess => "success"
      case ToolFailure => "failure"
      case ToolRejected => "rejected"
      case ToolDenied => "denied"
    }
  }

  function ParseToolResultType(s: string): (r: Option<ToolResultType>)
    ensures r.Some? ==> r.value.Name() == s
    ensures r.None? ==> forall t: ToolResultType :: t.Name() != s
  {
    if s == "success" then Some(ToolSuccess)
    else if s == "failure" then Some(ToolFailure)
    else if s == "rejected" then Some(ToolRejected)
    else if s == "denied" then Some(ToolDenied)
    else None
  }

  // ------------------------------------------------ permission result kind

  datatype PermissionResultKind =
    | Approved
    | DeniedByRules
    | DeniedNoApprovalRule
    | DeniedInteractivelyByUser
  {
    function Name(): string
    {
      match this
      case Approved => "approved"
      case DeniedByRules => "denied-by-rules"
      case DeniedNoApprovalRule => "denied-no-approval-rule-and-could-not-request-from-user"
      case DeniedInteractivelyByUser => "denied-interactively-by-user"
    }

    predicate IsDenial()
    {
      !Approved?
    }
  }

  function ParsePermissionResultKind(s: string): (r: Option<PermissionResultKind>)
    ensures r.Some? ==> r.value.Name() == s
    ensures r.None? ==> forall k: PermissionResultKind :: k.Name() != s
  {
    if s == "approved" then Some(Approved)
    else if s == "denied-by-rules" then Some(DeniedByRules)
    else if s == "denied-no-approval-rule-and-could-not-request-from-user" then Some(DeniedNoApprovalRule)
    else if s == "denied-interactively-by-user" then Some(DeniedInteractivelyByUser)
    else None
  }

  /** Every kind other than `approved` starts with `denied`. */
  lemma DenialsAreNamedDenied(k: PermissionResultKind)
    ensures k.IsDenial() <==> "denied" <= k.Name()
  {
    match k
    case Approved => assert k.Name()[0] != "denied"[0];
    case DeniedByRules => assert k.Name()[..6] == "denied";
    case DeniedNoApprovalRule => NoApprovalRuleIsDenied();
    case DeniedInteractivelyByUser => assert k.Name()[..6] == "denied";
  }

  /** The verifier does not read a prefix out of a literal this long; the
      same literal written as two shorter pieces lets it. */
  lemma NoApprovalRuleIsDenied()
    ensures "denied" <= DeniedNoApprovalRule.Name()
  {
    var name := DeniedNoApprovalRule.Name();
    assert name == "denied-no-approval-rule-and-" + "could-not-request-from-user";
    assert name[..6] == "denied";
  }
}

=== FILE: gowire.dfy ===
/** The Go client's wire records and how `encoding/json` writes them.
    Each struct is encoded by writing its fields in declaration order, each
    with the name and options of its `json` tag; `Put` applies the tag rules
    once for every field: a `json:"-"` field is never written, an
    `omitempty` field is left out when it holds its type's empty value, and
    every other field is written under its tag name. */
module GoWire {
  import opened Results
  import opened Json
  import Responses

  // ------------------------------------------------ encoding/json tag rules

  /** The Go field types these structs use; slices and maps carry their
      already-encoded elements. */
  datatype GoValue =
    | GoString(s: string)
    | GoBool(b: bool)
    | GoStringPtr(p: Option<string>)
    | GoSlice(items: seq<Json>)
    | GoMap(entries: map<string, Json>)

  datatype Tag = Named(name: string, omitEmpty: bool) | Skipped

  datatype GoField = GoField(tag: Tag, value: GoValue)

  /** `encoding/json`'s notion of an empty value for `omitempty`. */
  predicate IsEmptyValue(v: GoValue)
  {
    match v
    case GoString(s) => s == ""
    case GoBool(b) => !b
    case GoStringPtr(p) => p.None?
    case GoSlice(items) => items == []
    case GoMap(entries) => entries == map[]
  }

  function JsonOf(v: GoValue): Json
  {
    match v
    case GoString(s) => JStr(s)
    case GoBool(b) => JBool(b)
    case GoStringPtr(p) => if p.Some? then JStr(p.value) else JNull
    case GoSlice(items) => JArr(items)
    case GoMap(entries) => JObj(entries)
  }

  predicate Emitted(f: GoField)
  {
    f.tag.Named? && !(f.tag.omitEmpty && IsEmptyValue(f.value))
  }

  /** Writes one struct field into the object being encoded. */
  function Put(m: map<string, Json>, f: GoField): map<string, Json>
  {
    if Emitted(f) then m[f.tag.name := JsonOf(f.value)] else m
  }

  // ----------------------------------------------------------- tool result

  datatype ToolBinaryResult = ToolBinaryResult(data: string, mimeType: string, binaryType: string, description: string)

  function EncodeBinary(b: ToolBinaryResult): (r: map<string, Json>)
    ensures Get(r, "data") == Some(JStr(b.data))
    ensures Get(r, "mimeType") == Some(JStr(b.mimeType))
    ensures Get(r, "type") == Some(JStr(b.binaryType))
    ensures "description" in r <==> b.description != ""
    ensures "description" in r ==> r["description"] == JStr(b.description)
    ensures r.Keys <= {"data", "mimeType", "type", "description"}
  {
    var m := Put(map[], GoField(Named("data", false), GoString(b.data)));
    var m := Put(m, GoField(Named("mimeType", false), GoString(b.mimeType)));
    var m := Put(m, GoField(Named("type", false), GoString(b.binaryType)));
    Put(m, GoField(Named("description", true), GoString(b.description)))
  }

  /** A slice is encoded element by element, in order. */
  function EncodeBinaries(bs: seq<ToolBinaryResult>): (r: seq<Json>)
    ensures |r| == |bs|
    ensures forall i :: 0 <= i < |bs| ==> r[i] == JObj(EncodeBinary(bs[i]))
  {
    seq(|bs|, i requires 0 <= i < |bs| => JObj(EncodeBinary(bs[i])))
  }

  datatype ToolResult = ToolResult(
    textResultForLlm: string,
    binaryResultsForLlm: seq<ToolBinaryResult>,
    resultType: string,
    error: string,
    sessionLog: string,
    toolTelemetry: map<string, Json>)

  /** `textResultForLlm` and `resultType` are always written; the four
      `omitempty` fields only when non-empty. */
  function EncodeToolResult(t: ToolResult): (r: map<string, Json>)
    ensures Get(r, "textResultForLlm") == Some(JStr(t.textResultForLlm))
    ensures Get(r, "resultType") == Some(JStr(t.resultType))
    ensures "binaryResultsForLlm" in r <==> t.binaryResultsForLlm != []
    ensures "binaryResultsForLlm" in r ==> r["binaryResultsForLlm"] == JArr(EncodeBinaries(t.binaryResultsForLlm))
    ensures "error" in r <==> t.error != ""
    ensures "error" in r ==> r["error"] == JStr(t.error)
    ensures "sessionLog" in r <==> t.sessionLog != ""
    ensures "sessionLog" in r ==> r["sessionLog"] == JStr(t.sessionLog)
    ensures "toolTelemetry" in r <==> t.toolTelemetry != map[]
    ensures "toolTelemetry" in r ==> r["toolTelemetry"] == JObj(t.toolTelemetry)
    ensures r.Keys <= {"textResultForLlm", "binaryResultsForLlm", "resultType", "error", "sessionLog", "toolTelemetry"}
  {
    var binaries := EncodeBinaries(t.binaryResultsForLlm);
    assert binaries == [] <==> t.binaryResultsForLlm == [];
    var m := Put(map[], GoField(Named("textResultForLlm", false), GoString(t.textResultForLlm)));
    var m := Put(m, GoField(Named("binaryResultsForLlm", true), GoSlice(binaries)));
    var m := Put(m, GoField(Named("resultType", false), GoString(t.resultType)));
    var m := Put(m, GoField(Named("error", true), GoString(t.error)));
    var m := Put(m, GoField(Named("sessionLog", true), GoString(t.sessionLog)));
    Put(m, GoField(Named("toolTelemetry", true), GoMap(t.toolTelemetry)))
  }

  lemma BinaryEncodingInjective(a: ToolBinaryResult, b: ToolBinaryResult)
    requires EncodeBinary(a) == EncodeBinary(b)
    ensures a == b
  {
  }

  /** No information is lost by `omitempty`: a tool result is determined by
      its encoding, because every omitted field held the empty value. */
  lemma ToolResultEncodingInjective(a: ToolResult, b: ToolResult)
    requires EncodeToolResult(a) == EncodeToolResult(b)
    ensures a == b
  {
    forall i | 0 <= i < |a.binaryResultsForLlm| && i < |b.binaryResultsForLlm|
      ensures a.binaryResultsForLlm[i] == b.binaryResultsForLlm[i]
    {
      BinaryEncodingInjective(a.binaryResultsForLlm[i], b.binaryResultsForLlm[i]);
    }
  }

  // ---------------------------------------------------- permission request

  /** `Extra` carries the kind-specific fields; its `json:"-"` tag keeps it
      out of the encoding. */
  datatype PermissionRequest = PermissionRequest(kind: string, toolCallId: string, extra: map<string, Json>)

  function EncodePermissionRequest(p: PermissionRequest): (r: map<string, Json>)
    ensures r.Keys == {"kind"} + (if p.toolCallId != "" then {"toolCallId"} else {})
    ensures r["kind"] == JStr(p.kind)
    ensures "toolCallId" in r ==> r["toolCallId"] == JStr(p.toolCallId)
  {
    var m := Put(map[], GoField(Named("kind", false), GoString(p.kind)));
    var m := Put(m, GoField(Named("toolCallId", true), GoString(p.toolCallId)));
    Put(m, GoField(Skipped, GoMap(p.extra)))
  }

  /** Two requests encode alike exactly when they agree on `kind` and
      `toolCallId`, whatever their extension fields. */
  lemma PermissionRequestEncodingIgnoresExtra(a: PermissionRequest, b: PermissionRequest)
    ensures EncodePermissionRequest(a) == EncodePermissionRequest(b) <==> a.kind == b.kind && a.toolCallId == b.toolCallId
  {
    var ea := EncodePermissionRequest(a);
    var eb := EncodePermissionRequest(b);
    if ea == eb {
      assert ea["kind"] == eb["kind"];
      if a.toolCallId != "" {
        assert ea["toolCallId"] == eb["toolCallId"];
      }
    }
  }

  // --------------------------------------------- permission request result

  datatype PermissionRequestResult = PermissionRequestResult(kind: string, rules: seq<Json>)

  function EncodePermissionResult(p: PermissionRequestResult): (r: map<string, Json>)
    ensures r.Keys == {"kind"} + (if p.rules != [] then {"rules"} else {})
    ensures r["kind"] == JStr(p.kind)
    ensures "rules" in r ==> r["rules"] == JArr(p.rules)
  {
    var m := Put(map[], GoField(Named("kind", false), GoString(p.kind)));
    Put(m, GoField(Named("rules", true), GoSlice(p.rules)))
  }

  lemma PermissionResultEncodingInjective(a: PermissionRequestResult, b: PermissionRequestResult)
    requires EncodePermissionResult(a) == EncodePermissionResult(b)
    ensures a == b
  {
    assert EncodePermissionResult(a)["kind"] == EncodePermissionResult(b)["kind"];
    if a.rules != [] {
      assert EncodePermissionResult(a)["rules"] == EncodePermissionResult(b)["rules"];
    }
  }

  // ---------------------------------------------------------- auth status

  function EncodeAuthStatus(a: Responses.GetAuthStatusResponse): (r: map<string, Json>)
    ensures r.Keys <= Responses.AuthKeys
    ensures "isAuthenticated" in r && r["isAuthenticated"] == JBool(a.isAuthenticated)
    ensures ("authType" in r <==> a.authType.Some?) && (a.authType.Some? ==> r["authType"] == JStr(a.authType.value))
    ensures ("host" in r <==> a.host.Some?) && (a.host.Some? ==> r["host"] == JStr(a.host.value))
    ensures ("login" in r <==> a.login.Some?) && (a.login.Some? ==> r["login"] == JStr(a.login.value))
    ensures ("statusMessage" in r <==> a.statusMessage.Some?)
            && (a.statusMessage.Some? ==> r["statusMessage"] == JStr(a.statusMessage.value))
  {
    var m := Put(map[], GoField(Named("isAuthenticated", false), GoBool(a.isAuthenticated)));
    var m := Put(m, GoField(Named("authType", true), GoStringPtr(a.authType)));
    var m := Put(m, GoField(Named("host", true), GoStringPtr(a.host)));
    var m := Put(m, GoField(Named("login", true), GoStringPtr(a.login)));
    Put(m, GoField(Named("statusMessage", true), GoStringPtr(a.statusMessage)))
  }

  /** The Go struct tags and the Python `to_dict` write the same object for
      every auth status: `isAuthenticated` always, each other field exactly
      when it is set. */
  lemma AuthStatusEncodersAgree(a: Responses.GetAuthStatusResponse)
    ensures EncodeAuthStatus(a) == Responses.AuthStatusToDict(a)
  {
    var m0 := map["isAuthenticated" := JBool(a.isAuthenticated)];
    PointerFieldIsSetIfPresent(m0, "authType", a.authType);
    var m1 := Responses.SetIfPresent(m0, "authType", a.authType);
    PointerFieldIsSetIfPresent(m1, "host", a.host);
    var m2 := Responses.SetIfPresent(m1, "host", a.host);
    PointerFieldIsSetIfPresent(m2, "login", a.login);
    var m3 := Responses.SetIfPresent(m2, "login", a.login);
    PointerFieldIsSetIfPresent(m3, "statusMessage", a.statusMessage);
  }

  /** An `omitempty` string pointer is written exactly when it is not nil,
      which is Python's `if value is not None` rule. */
  lemma PointerFieldIsSetIfPresent(m: map<string, Json>, key: string, v: Option<string>)
    ensures Put(m, GoField(Named(key, true), GoStringPtr(v))) == Responses.SetIfPresent(m, key, v)
  {
  }
}

=== FILE: json.dfy ===
/** JSON values as the decoders see them, together with the two pieces of
    Python semantics every decoder relies on: `dict.get`, which reads an
    absent key and an explicit `null` the same way, and truthiness, which
    decides `if x` and `bool(x)`. */
module Json {
  import opened Results

  datatype Json =
    | JNull
    | JBool(b: bool)
    | JInt(i: int)
    | JStr(s: string)
    | JArr(items: seq<Json>)
    | JObj(fields: map<string, Json>)

  /** A JSON value other than null (the type of a Python field that is never None). */
  type NonNull = j: Json | j != JNull witness JBool(false)

  /** Why a decoder refused its input. `NotAnObject` is the failed
      `assert isinstance(obj, dict)`, `MissingFields` the `ValueError` raised
      for absent or null required keys (listing exactly those keys), and
      `WrongKind` a present field whose JSON kind the field cannot hold. */
  datatype DecodeError =
    | NotAnObject(typeName: string)
    | MissingFields(typeName: string, keys: seq<string>)
    | WrongKind(typeName: string, key: string)

  /** `obj.get(key)`: None when the key is absent or maps to null. */
  function Get(m: map<string, Json>, key: string): Option<Json>
  {
    if key in m && m[key] != JNull then Some(m[key]) else None
  }

  /** `obj.get(key)` as a value, with null standing for None. */
  function Value(m: map<string, Json>, key: string): Json
  {
    if key in m then m[key] else JNull
  }

  /** Python truthiness of a decoded JSON value. */
  predicate Truthy(j: Json)
  {
    match j
    case JNull => false
    case JBool(b) => b
    case JInt(i) => i != 0
    case JStr(s) => s != ""
    case JArr(items) => items != []
    case JObj(fields) => fields != map[]
  }

  /** The keys among `keys` that `Get` reads as None, in order. */
  function MissingKeys(m: map<string, Json>, keys: seq<string>): (r: seq<string>)
    ensures forall k :: k in r <==> k in keys && Get(m, k).None?
    ensures r == [] <==> forall k :: k in keys ==> Get(m, k).Some?
    ensures |r| <= |keys|
  {
    if keys == [] then []
    else (if Get(m, keys[0]).None? then [keys[0]] else []) + MissingKeys(m, keys[1..])
  }

  /** The part of an object a decoder reads: the entries under `keys` that
      are not null. */
  function Known(m: map<string, Json>, keys: set<string>): map<string, Json>
  {
    map k | k in m.Keys && k in keys && m[k] != JNull :: m[k]
  }

  function AsObject(j: Json, typeName: string): Result<map<string, Json>, DecodeError>
  {
    if j.JObj? then Success(j.fields) else Failure(NotAnObject(typeName))
  }

  /** Raises the decoder's `ValueError` when a required key is absent or null. */
  function RequireKeys(m: map<string, Json>, keys: seq<string>, typeName: string): Result<(), DecodeError>
  {
    var missing := MissingKeys(m, keys);
    if missing == [] then Success(()) else Failure(MissingFields(typeName, missing))
  }

  function ReqStr(m: map<string, Json>, key: string, typeName: string): Result<string, DecodeError>
  {
    match Get(m, key)
    case None => Failure(MissingFields(typeName, [key]))
    case Some(JStr(s)) => Success(s)
    case Some(_) => Failure(WrongKind(typeName, key))
  }

  function ReqInt(m: map<string, Json>, key: string, typeName: string): Result<int, DecodeError>
  {
    match Get(m, key)
    case None => Failure(MissingFields(typeName, [key]))
    case Some(JInt(i)) => Success(i)
    case Some(_) => Failure(WrongKind(typeName, key))
  }

  /** A required key read through `bool(...)`: any non-null value decodes. */
  function ReqBool(m: map<string, Json>, key: string, typeName: string): Result<bool, DecodeError>
  {
    match Get(m, key)
    case None => Failure(MissingFields(typeName, [key]))
    case Some(v) => Success(Truthy(v))
  }

  /** An optional field holds what `obj.get(key)` read: nothing when the key
      is absent or null, and otherwise the string stored there. */
  predicate OptStrAt(m: map<string, Json>, key: string, v: Option<string>)
  {
    match v
    case None => Get(m, key).None?
    case Some(s) => Get(m, key) == Some(JStr(s))
  }

  predicate OptIntAt(m: map<string, Json>, key: string, v: Option<int>)
  {
    match v
    case None => Get(m, key).None?
    case Some(i) => Get(m, key) == Some(JInt(i))
  }

  predicate OptStrListAt(m: map<string, Json>, key: string, v: Option<seq<string>>)
  {
    match v
    case None => Get(m, key).None?
    case Some(ss) => Get(m, key) == Some(JArr(StrArray(ss)))
  }

  /** The key is absent or null, or holds a value of the kind the field reads. */
  predicate StrOrAbsent(m: map<string, Json>, key: string)
  {
    Get(m, key).None? || Get(m, key).value.JStr?
  }

  predicate IntOrAbsent(m: map<string, Json>, key: string)
  {
    Get(m, key).None? || Get(m, key).value.JInt?
  }

  predicate StrListOrAbsent(m: map<string, Json>, key: string)
  {
    Get(m, key).None? || (Get(m, key).value.JArr? && forall i :: 0 <= i < |Get(m, key).value.items| ==> Get(m, key).value.items[i].JStr?)
  }

  function OptStr(m: map<string, Json>, key: string, typeName: string): (r: Result<Option<string>, DecodeError>)
    ensures r.Success? <==> StrOrAbsent(m, key)
    ensures r.Success? ==> OptStrAt(m, key, r.value)
    ensures r.Failure? ==> r.error == WrongKind(typeName, key)
  {
    match Get(m, key)
    case None => Success(None)
    case Some(JStr(s)) => Success(Some(s))
    case Some(_) => Failure(WrongKind(typeName, key))
  }

  function OptInt(m: map<string, Json>, key: string, typeName: string): (r: Result<Option<int>, DecodeError>)
    ensures r.Success? <==> IntOrAbsent(m, key)
    ensures r.Success? ==> OptIntAt(m, key, r.value)
    ensures r.Failure? ==> r.error == WrongKind(typeName, key)
  {
    match Get(m, key)
    case None => Success(None)
    case Some(JInt(i)) => Success(Some(i))
    case Some(_) => Failure(WrongKind(typeName, key))
  }

  /** A JSON array of strings, as the string list it holds. */
  function StrList(items: seq<Json>): (r: Option<seq<string>>)
    ensures r.Some? <==> forall i :: 0 <= i < |items| ==> items[i].JStr?
    ensures r.Some? ==> |r.value| == |items| && forall i :: 0 <= i < |items| ==> items[i] == JStr(r.value[i])
  {
    if items == [] then Some([])
    else match (items[0], StrList(items[1..]))
      case (JStr(s), Some(rest)) => Some([s] + rest)
      case _ => None
  }

  function StrArray(ss: seq<string>): (r: seq<Json>)
  {
    seq(|ss|, i requires 0 <= i < |ss| => JStr(ss[i]))
  }

  lemma StrListOfStrArray(ss: seq<string>)
    ensures StrList(StrArray(ss)) == Some(ss)
  {
    var r := StrList(StrArray(ss));
    assert r.Some?;
    assert r.value == ss;
  }

  function OptStrList(m: map<string, Json>, key: string, typeName: string): (r: Result<Option<seq<string>>, DecodeError>)
    ensures r.Success? <==> StrListOrAbsent(m, key)
    ensures r.Success? ==> OptStrListAt(m, key, r.value)
    ensures r.Failure? ==> r.error == WrongKind(typeName, key)
  {
    match Get(m, key)
    case None => Success(None)
    case Some(JArr(items)) =>
      (match StrList(items)
       case Some(ss) => StrArrayOfStrList(items, ss); Success(Some(ss))
       case None => Failure(WrongKind(typeName, key)))
    case Some(_) => Failure(WrongKind(typeName, key))
  }

  /** A string list read from an array gives the array back when written. */
  lemma StrArrayOfStrList(items: seq<Json>, ss: seq<string>)
    requires StrList(items) == Some(ss)
    ensures StrArray(ss) == items
  {
  }
}

=== FILE: models.dfy ===
/** Model metadata as returned by `models.list`: vision limits, limits,
    support flags, capabilities, policy, billing and the model record that
    nests them. Nested objects are decoded by their own decoders, so a
    nested failure is the failure of the whole record. The optional nested
    objects (`vision`, `policy`, `billing`) are decoded only when their value
    is truthy: a missing, null or empty one reads as absent. */
module Models {
  import opened Results
  import opened Json

  // ------------------------------------------------------- vision limits

  datatype ModelVisionLimits = ModelVisionLimits(
    supportedMediaTypes: Option<seq<string>>,
    maxPromptImages: Option<int>,
    maxPromptImageSize: Option<int>)

  /** Some field of the vision limits holds a value. */
  predicate VisionNonEmpty(v: ModelVisionLimits)
  {
    v.supportedMediaTypes.Some? || v.maxPromptImages.Some? || v.maxPromptImageSize.Some?
  }

  /** Every field is optional: any object decodes unless a field has the wrong kind. */
  function VisionFromDict(j: Json): (r: Result<ModelVisionLimits, DecodeError>)
    ensures !j.JObj? ==> r == Failure(NotAnObject("ModelVisionLimits"))
    ensures r.Failure? ==> r.error.NotAnObject? || r.error.WrongKind?
    ensures r.Success? <==>
              && j.JObj?
              && StrListOrAbsent(j.fields, "supported_media_types")
              && IntOrAbsent(j.fields, "max_prompt_images")
              && IntOrAbsent(j.fields, "max_prompt_image_size")
    ensures r.Success? ==>
              && OptStrListAt(j.fields, "supported_media_types", r.value.supportedMediaTypes)
              && OptIntAt(j.fields, "max_prompt_images", r.value.maxPromptImages)
              && OptIntAt(j.fields, "max_prompt_image_size", r.value.maxPromptImageSize)
  {
    var m :- AsObject(j, "ModelVisionLimits");
    var types :- OptStrList(m, "supported_media_types", "ModelVisionLimits");
    var images :- OptInt(m, "max_prompt_images", "ModelVisionLimits");
    var size :- OptInt(m, "max_prompt_image_size", "ModelVisionLimits");
    Success(ModelVisionLimits(types, images, size))
  }

  function VisionToDict(v: ModelVisionLimits): (r: map<string, Json>)
    ensures "supported_media_types" in r <==> v.supportedMediaTypes.Some?
    ensures "max_prompt_images" in r <==> v.maxPromptImages.Some?
    ensures "max_prompt_image_size" in r <==> v.maxPromptImageSize.Some?
    ensures r.Keys <= {"supported_media_types", "max_prompt_images", "max_prompt_image_size"}
    ensures r == map[] <==> !VisionNonEmpty(v)
    ensures v.supportedMediaTypes.Some? ==>
              r["supported_media_types"] == JArr(StrArray(v.supportedMediaTypes.value))
    ensures v.maxPromptImages.Some? ==> r["max_prompt_images"] == JInt(v.maxPromptImages.value)
    ensures v.maxPromptImageSize.Some? ==> r["max_prompt_image_size"] == JInt(v.maxPromptImageSize.value)
  {
    (if v.supportedMediaTypes.Some? then map["supported_media_types" := JArr(StrArray(v.supportedMediaTypes.value))] else map[])
    + (if v.maxPromptImages.Some? then map["max_prompt_images" := JInt(v.maxPromptImages.value)] else map[])
    + (if v.maxPromptImageSize.Some? then map["max_prompt_image_size" := JInt(v.maxPromptImageSize.value)] else map[])
  }

  lemma VisionRoundTrip(v: ModelVisionLimits)
    ensures VisionFromDict(JObj(VisionToDict(v))) == Success(v)
  {
    if v.supportedMediaTypes.Some? {
      StrListOfStrArray(v.supportedMediaTypes.value);
    }
  }

  // -------------------------------------------------------------- limits

  datatype ModelLimits = ModelLimits(
    maxPromptTokens: Option<int>,
    maxContextWindowTokens: Option<int>,
    vision: Option<ModelVisionLimits>)

  function LimitsFromDict(j: Json): (r: Result<ModelLimits, DecodeError>)
    ensures !j.JObj? ==> r == Failure(NotAnObject("ModelLimits"))
    ensures r.Success? <==>
              && j.JObj?
              && IntOrAbsent(j.fields, "max_prompt_tokens")
              && IntOrAbsent(j.fields, "max_context_window_tokens")
              && (Truthy(Value(j.fields, "vision")) ==> VisionFromDict(Value(j.fields, "vision")).Success?)
    ensures r.Success? ==>
              && OptIntAt(j.fields, "max_prompt_tokens", r.value.maxPromptTokens)
              && OptIntAt(j.fields, "max_context_window_tokens", r.value.maxContextWindowTokens)
              && r.value.vision == (if Truthy(Value(j.fields, "vision"))
                                    then Some(VisionFromDict(Value(j.fields, "vision")).value) else None)
    ensures j.JObj? && IntOrAbsent(j.fields, "max_prompt_tokens") && IntOrAbsent(j.fields, "max_context_window_tokens")
            && Truthy(Value(j.fields, "vision")) && VisionFromDict(Value(j.fields, "vision")).Failure?
            ==> r == Failure(VisionFromDict(Value(j.fields, "vision")).error)
  {
    var m :- AsObject(j, "ModelLimits");
    var promptTokens :- OptInt(m, "max_prompt_tokens", "ModelLimits");
    var windowTokens :- OptInt(m, "max_context_window_tokens", "ModelLimits");
    var vision :- if "vision" in m && Truthy(m["vision"])
                  then (var v :- VisionFromDict(m["vision"]); Success(Some(v)))
                  else Success(None);
    Success(ModelLimits(promptTokens, windowTokens, vision))
  }

  function LimitsToDict(l: ModelLimits): (r: map<string, Json>)
    ensures "max_prompt_tokens" in r <==> l.maxPromptTokens.Some?
    ensures "max_context_window_tokens" in r <==> l.maxContextWindowTokens.Some?
    ensures "vision" in r <==> l.vision.Some?
    ensures l.vision.Some? ==> r["vision"] == JObj(VisionToDict(l.vision.value))
    ensures l.maxPromptTokens.Some? ==> r["max_prompt_tokens"] == JInt(l.maxPromptTokens.value)
    ensures l.maxContextWindowTokens.Some? ==> r["max_context_window_tokens"] == JInt(l.maxContextWindowTokens.value)
    ensures r.Keys <= {"max_prompt_tokens", "max_context_window_tokens", "vision"}
  {
    (if l.maxPromptTokens.Some? then map["max_prompt_tokens" := JInt(l.maxPromptTokens.value)] else map[])
    + (if l.maxContextWindowTokens.Some? then map["max_context_window_tokens" := JInt(l.maxContextWindowTokens.value)] else map[])
    + (if l.vision.Some? then map["vision" := JObj(VisionToDict(l.vision.value))] else map[])
  }

  /** The limits that survive encoding and decoding: an all-empty vision
      record encodes to `{}`, which decodes as no vision at all. */
  predicate LimitsRoundTrips(l: ModelLimits)
  {
    l.vision.None? || VisionNonEmpty(l.vision.value)
  }

  lemma LimitsRoundTripIff(l: ModelLimits)
    ensures LimitsFromDict(JObj(LimitsToDict(l))) == Success(l) <==> LimitsRoundTrips(l)
  {
    var d := LimitsToDict(l);
    if l.vision.Some? {
      VisionRoundTrip(l.vision.value);
      assert d["vision"] == JObj(VisionToDict(l.vision.value));
      if !VisionNonEmpty(l.vision.value) {
        assert !Truthy(d["vision"]);
        assert LimitsFromDict(JObj(d)).value.vision.None?;
      }
    }
  }

  /** The case the round trip loses, written out. */
  lemma EmptyVisionIsDropped()
    ensures LimitsFromDict(JObj(LimitsToDict(ModelLimits(None, None, Some(ModelVisionLimits(None, None, None))))))
            == Success(ModelLimits(None, None, None))
  {
  }

  // ------------------------------------------------------------ supports

  datatype ModelSupports = ModelSupports(vision: bool)

  function SupportsFromDict(j: Json): (r: Result<ModelSupports, DecodeError>)
    ensures !j.JObj? ==> r == Failure(NotAnObject("ModelSupports"))
    ensures j.JObj? && Get(j.fields, "vision").None? ==> r == Failure(MissingFields("ModelSupports", ["vision"]))
    ensures j.JObj? && Get(j.fields, "vision").Some? ==> r == Success(ModelSupports(Truthy(j.fields["vision"])))
  {
    var m :- AsObject(j, "ModelSupports");
    var vision :- ReqBool(m, "vision", "ModelSupports");
    Success(ModelSupports(vision))
  }

  function SupportsToDict(s: ModelSupports): (r: map<string, Json>)
    ensures r.Keys == {"vision"} && r["vision"] == JBool(s.vision)
  {
    map["vision" := JBool(s.vision)]
  }

  lemma SupportsRoundTrip(s: ModelSupports)
    ensures SupportsFromDict(JObj(SupportsToDict(s))) == Success(s)
  {
  }

  // -------------------------------------------------------- capabilities

  datatype ModelCapabilities = ModelCapabilities(supports: ModelSupports, limits: ModelLimits)

  const CapabilityKeys: seq<string> := ["supports", "limits"]

  /** Both nested objects are required; `supports` is decoded before `limits`. */
  function CapabilitiesFromDict(j: Json): (r: Result<ModelCapabilities, DecodeError>)
    ensures !j.JObj? ==> r == Failure(NotAnObject("ModelCapabilities"))
    ensures j.JObj? && MissingKeys(j.fields, CapabilityKeys) != [] ==>
              r == Failure(MissingFields("ModelCapabilities", MissingKeys(j.fields, CapabilityKeys)))
    ensures j.JObj? && MissingKeys(j.fields, CapabilityKeys) == [] && SupportsFromDict(Value(j.fields, "supports")).Failure? ==>
              r == Failure(SupportsFromDict(Value(j.fields, "supports")).error)
    ensures j.JObj? && MissingKeys(j.fields, CapabilityKeys) == [] && SupportsFromDict(Value(j.fields, "supports")).Success?
            && LimitsFromDict(Value(j.fields, "limits")).Failure? ==>
              r == Failure(LimitsFromDict(Value(j.fields, "limits")).error)
    ensures r.Success? <==>
              && j.JObj? && MissingKeys(j.fields, CapabilityKeys) == []
              && SupportsFromDict(Value(j.fields, "supports")).Success?
              && LimitsFromDict(Value(j.fields, "limits")).Success?
    ensures r.Success? ==>
              && Get(j.fields, "supports").Some? && SupportsFromDict(Value(j.fields, "supports")) == Success(r.value.supports)
              && Get(j.fields, "limits").Some? && LimitsFromDict(Value(j.fields, "limits")) == Success(r.value.limits)
  {
    var m :- AsObject(j, "ModelCapabilities");
    var _ :- RequireKeys(m, CapabilityKeys, "ModelCapabilities");
    var supports :- SupportsFromDict(Value(m, "supports"));
    var limits :- LimitsFromDict(Value(m, "limits"));
    Success(ModelCapabilities(supports, limits))
  }

  function CapabilitiesToDict(c: ModelCapabilities): (r: map<string, Json>)
    ensures r.Keys == {"supports", "limits"}
    ensures r["supports"] == JObj(SupportsToDict(c.supports)) && r["limits"] == JObj(LimitsToDict(c.limits))
  {
    map["supports" := JObj(SupportsToDict(c.supports)), "limits" := JObj(LimitsToDict(c.limits))]
  }

  lemma CapabilitiesRoundTripIff(c: ModelCapabilities)
    ensures CapabilitiesFromDict(JObj(CapabilitiesToDict(c))) == Success(c) <==> LimitsRoundTrips(c.limits)
  {
    LimitsRoundTripIff(c.limits);
    SupportsRoundTrip(c.supports);
  }

  /** A `supports` object without `vision` fails the whole record with the
      nested error. */
  lemma CapabilitiesPropagateSupportsError(limits: Json)
    requires limits != JNull
    ensures CapabilitiesFromDict(JObj(map["supports" := JObj(map[]), "limits" := limits]))
            == Failure(MissingFields("ModelSupports", ["vision"]))
  {
    var m := map["supports" := JObj(map[]), "limits" := limits];
    assert MissingKeys(m, CapabilityKeys) == [];
  }

  // -------------------------------------------------------------- policy

  datatype ModelPolicy = ModelPolicy(state: string, terms: string)

  const PolicyKeys: seq<string> := ["state", "terms"]

  function PolicyFromDict(j: Json): (r: Result<ModelPolicy, DecodeError>)
    ensures !j.JObj? ==> r == Failure(NotAnObject("ModelPolicy"))
    ensures j.JObj? && MissingKeys(j.fields, PolicyKeys) != [] ==>
              r == Failure(MissingFields("ModelPolicy", MissingKeys(j.fields, PolicyKeys)))
    ensures r.Success? <==>
              j.JObj? && Get(j.fields, "state").Some? && Get(j.fields, "state").value.JStr?
              && Get(j.fields, "terms").Some? && Get(j.fields, "terms").value.JStr?
    ensures r.Success? ==> j.fields["state"] == JStr(r.value.state) && j.fields["terms"] == JStr(r.value.terms)
  {
    var m :- AsObject(j, "ModelPolicy");
    var _ :- RequireKeys(m, PolicyKeys, "ModelPolicy");
    var state :- ReqStr(m, "state", "ModelPolicy");
    var terms :- ReqStr(m, "terms", "ModelPolicy");
    Success(ModelPolicy(state, terms))
  }

  function PolicyToDict(p: ModelPolicy): (r: map<string, Json>)
    ensures r.Keys == {"state", "terms"} && r["state"] == JStr(p.state) && r["terms"] == JStr(p.terms)
  {
    map["state" := JStr(p.state), "terms" := JStr(p.terms)]
  }

  lemma PolicyRoundTrip(p: ModelPolicy)
    ensures PolicyFromDict(JObj(PolicyToDict(p))) == Success(p)
  {
  }

  // ------------------------------------------------------------- billing

  /** The multiplier is a float on the wire; it is carried as an opaque,
      non-null JSON value. */
  datatype ModelBilling = ModelBilling(multiplier: NonNull)

  function BillingFromDict(j: Json): (r: Result<ModelBilling, DecodeError>)
    ensures !j.JObj? ==> r == Failure(NotAnObject("ModelBilling"))
    ensures j.JObj? && Get(j.fields, "multiplier").None? ==> r == Failure(MissingFields("ModelBilling", ["multiplier"]))
    ensures j.JObj? && Get(j.fields, "multiplier").Some? ==> r == Success(ModelBilling(j.fields["multiplier"]))
  {
    var m :- AsObject(j, "ModelBilling");
    match Get(m, "multiplier")
    case None => Failure(MissingFields("ModelBilling", ["multiplier"]))
    case Some(v) => Success(ModelBilling(v))
  }

  function BillingToDict(b: ModelBilling): (r: map<string, Json>)
    ensures r.Keys == {"multiplier"} && r["multiplier"] == b.multiplier
  {
    map["multiplier" := b.multiplier]
  }

  lemma BillingRoundTrip(b: ModelBilling)
    ensures BillingFromDict(JObj(BillingToDict(b))) == Success(b)
  {
  }

  // ---------------------------------------------------------- model info

  datatype ModelInfo = ModelInfo(
    id: string,
    name: string,
    capabilities: ModelCapabilities,
    policy: Option<ModelPolicy>,
    billing: Option<ModelBilling>)

  const InfoKeys: seq<string> := ["id", "name", "capabilities"]

  /** The optional `policy` field: decoded only when its value is truthy. */
  function PolicyField(m: map<string, Json>): (r: Result<Option<ModelPolicy>, DecodeError>)
    ensures !Truthy(Value(m, "policy")) ==> r == Success(None)
    ensures Truthy(Value(m, "policy")) && PolicyFromDict(Value(m, "policy")).Success? ==>
              r == Success(Some(PolicyFromDict(Value(m, "policy")).value))
    ensures Truthy(Value(m, "policy")) && PolicyFromDict(Value(m, "policy")).Failure? ==>
              r == Failure(PolicyFromDict(Value(m, "policy")).error)
  {
    if Truthy(Value(m, "policy")) then
      var p :- PolicyFromDict(Value(m, "policy"));
      Success(Some(p))
    else Success(None)
  }

  /** The optional `billing` field: decoded only when its value is truthy. */
  function BillingField(m: map<string, Json>): (r: Result<Option<ModelBilling>, DecodeError>)
    ensures !Truthy(Value(m, "billing")) ==> r == Success(None)
    ensures Truthy(Value(m, "billing")) && BillingFromDict(Value(m, "billing")).Success? ==>
              r == Success(Some(BillingFromDict(Value(m, "billing")).value))
    ensures Truthy(Value(m, "billing")) && BillingFromDict(Value(m, "billing")).Failure? ==>
              r == Failure(BillingFromDict(Value(m, "billing")).error)
  {
    if Truthy(Value(m, "billing")) then
      var b :- BillingFromDict(Value(m, "billing"));
      Success(Some(b))
    else Success(None)
  }

  /** `id`, `name` and `capabilities` are required; `policy` and `billing`
      are decoded only when truthy, in that order, after the capabilities. */
  function InfoFromDict(j: Json): (r: Result<ModelInfo, DecodeError>)
    ensures !j.JObj? ==> r == Failure(NotAnObject("ModelInfo"))
    ensures j.JObj? && MissingKeys(j.fields, InfoKeys) != [] ==>
              r == Failure(MissingFields("ModelInfo", MissingKeys(j.fields, InfoKeys)))
    ensures j.JObj? && MissingKeys(j.fields, InfoKeys) == []
            && CapabilitiesFromDict(Value(j.fields, "capabilities")).Failure? ==>
              r == Failure(CapabilitiesFromDict(Value(j.fields, "capabilities")).error)
    ensures j.JObj? && MissingKeys(j.fields, InfoKeys) == []
            && CapabilitiesFromDict(Value(j.fields, "capabilities")).Success?
            && PolicyField(j.fields).Failure? ==>
              r == Failure(PolicyField(j.fields).error)
    ensures j.JObj? && MissingKeys(j.fields, InfoKeys) == []
            && CapabilitiesFromDict(Value(j.fields, "capabilities")).Success?
            && PolicyField(j.fields).Success? && BillingField(j.fields).Failure? ==>
              r == Failure(BillingField(j.fields).error)
    ensures r.Success? <==>
              && j.JObj? && MissingKeys(j.fields, InfoKeys) == []
              && CapabilitiesFromDict(Value(j.fields, "capabilities")).Success?
              && PolicyField(j.fields).Success? && BillingField(j.fields).Success?
              && Get(j.fields, "id").Some? && Get(j.fields, "id").value.JStr?
              && Get(j.fields, "name").Some? && Get(j.fields, "name").value.JStr?
    ensures r.Success? ==>
              && r.value.policy == PolicyField(j.fields).value
              && r.value.billing == BillingField(j.fields).value
              && Get(j.fields, "id") == Some(JStr(r.value.id))
              && Get(j.fields, "name") == Some(JStr(r.value.name))
              && Get(j.fields, "capabilities").Some?
              && CapabilitiesFromDict(Value(j.fields, "capabilities")) == Success(r.value.capabilities)
              && (r.value.policy.Some? <==> Truthy(Value(j.fields, "policy")))
              && (r.value.billing.Some? <==> Truthy(Value(j.fields, "billing")))
  {
    var m :- AsObject(j, "ModelInfo");
    var _ :- RequireKeys(m, InfoKeys, "ModelInfo");
    var capabilities :- CapabilitiesFromDict(Value(m, "capabilities"));
    var policy :- PolicyField(m);
    var billing :- BillingField(m);
    var id :- ReqStr(m, "id", "ModelInfo");
    var name :- ReqStr(m, "name", "ModelInfo");
    Success(ModelInfo(id, name, capabilities, policy, billing))
  }

  function InfoToDict(i: ModelInfo): (r: map<string, Json>)
    ensures Get(r, "id") == Some(JStr(i.id)) && Get(r, "name") == Some(JStr(i.name))
    ensures Get(r, "capabilities") == Some(JObj(CapabilitiesToDict(i.capabilities)))
    ensures "policy" in r <==> i.policy.Some?
    ensures i.policy.Some? ==> r["policy"] == JObj(PolicyToDict(i.policy.value))
    ensures "billing" in r <==> i.billing.Some?
    ensures i.billing.Some? ==> r["billing"] == JObj(BillingToDict(i.billing.value))
    ensures r.Keys <= {"id", "name", "capabilities", "policy", "billing"}
  {
    var required := map["id" := JStr(i.id), "name" := JStr(i.name),
                        "capabilities" := JObj(CapabilitiesToDict(i.capabilities))];
    var withPolicy := if i.policy.Some? then required["policy" := JObj(PolicyToDict(i.policy.value))] else required;
    if i.billing.Some? then withPolicy["billing" := JObj(BillingToDict(i.billing.value))] else withPolicy
  }

  /** A model record round-trips exactly when its limits do: policy and
      billing always encode to non-empty objects. */
  lemma InfoRoundTripIff(i: ModelInfo)
    ensures InfoFromDict(JObj(InfoToDict(i))) == Success(i) <==> LimitsRoundTrips(i.capabilities.limits)
  {
    var d := InfoToDict(i);
    CapabilitiesRoundTripIff(i.capabilities);
    assert Value(d, "capabilities") == JObj(CapabilitiesToDict(i.capabilities));
    if LimitsRoundTrips(i.capabilities.limits) {
      InfoDecodesEncoding(i);
    }
  }

  lemma InfoDecodesEncoding(i: ModelInfo)
    requires LimitsRoundTrips(i.capabilities.limits)
    ensures InfoFromDict(JObj(InfoToDict(i))) == Success(i)
  {
    var d := InfoToDict(i);
    InfoEncodingParts(i);
    InfoFromParts(d, i);
  }

  /** Each part of an encoded model record decodes back to its field. */
  lemma InfoEncodingParts(i: ModelInfo)
    requires LimitsRoundTrips(i.capabilities.limits)
    ensures RequireKeys(InfoToDict(i), InfoKeys, "ModelInfo") == Success(())
    ensures CapabilitiesFromDict(Value(InfoToDict(i), "capabilities")) == Success(i.capabilities)
    ensures PolicyField(InfoToDict(i)) == Success(i.policy)
    ensures BillingField(InfoToDict(i)) == Success(i.billing)
    ensures ReqStr(InfoToDict(i), "id", "ModelInfo") == Success(i.id)
    ensures ReqStr(InfoToDict(i), "name", "ModelInfo") == Success(i.name)
  {
    var d := InfoToDict(i);
    CapabilitiesRoundTripIff(i.capabilities);
    assert MissingKeys(d, InfoKeys) == [] by {
      assert Get(d, InfoKeys[0]).Some? && Get(d, InfoKeys[1]).Some? && Get(d, InfoKeys[2]).Some?;
    }
    InfoEncodingPolicy(i);
    InfoEncodingBilling(i);
  }

  lemma InfoEncodingPolicy(i: ModelInfo)
    ensures PolicyField(InfoToDict(i)) == Success(i.policy)
  {
    var d := InfoToDict(i);
    if i.policy.Some? {
      PolicyRoundTrip(i.policy.value);
      assert Value(d, "policy") == JObj(PolicyToDict(i.policy.value));
    } else {
      assert Value(d, "policy") == JNull;
    }
  }

  lemma InfoEncodingBilling(i: ModelInfo)
    ensures BillingField(InfoToDict(i)) == Success(i.billing)
  {
    var d := InfoToDict(i);
    if i.billing.Some? {
      BillingRoundTrip(i.billing.value);
      assert Value(d, "billing") == JObj(BillingToDict(i.billing.value));
    } else {
      assert Value(d, "billing") == JNull;
    }
  }

  /** The decoder assembles the record from its successfully decoded parts. */
  lemma InfoFromParts(m: map<string, Json>, i: ModelInfo)
    requires RequireKeys(m, InfoKeys, "ModelInfo") == Success(())
    requires CapabilitiesFromDict(Value(m, "capabilities")) == Success(i.capabilities)
    requires PolicyField(m) == Success(i.policy)
    requires BillingField(m) == Success(i.billing)
    requires ReqStr(m, "id", "ModelInfo") == Success(i.id)
    requires ReqStr(m, "name", "ModelInfo") == Success(i.name)
    ensures InfoFromDict(JObj(m)) == Success(i)
  {
  }
}

=== FILE: responses.dfy ===
/** The flat response records of the Python wire layer and their
    `from_dict` / `to_dict` pairs: `PingResponse`, `StopError`,
    `GetStatusResponse`, `GetAuthStatusResponse` and `SessionMetadata`.
    A decoder rejects a non-object, then raises for required keys that are
    absent or null; an encoder writes required keys always and optional keys
    only when they hold a value. */
module Responses {
  import opened Results
  import opened Json

  // ---------------------------------------------------------------- ping

  datatype PingResponse = PingResponse(message: string, timestamp: int, protocolVersion: int)

  const PingKeys: seq<string> := ["message", "timestamp", "protocolVersion"]

  function PingFromDict(j: Json): (r: Result<PingResponse, DecodeError>)
    ensures !j.JObj? ==> r == Failure(NotAnObject("PingResponse"))
    ensures j.JObj? && MissingKeys(j.fields, PingKeys) != [] ==>
              r == Failure(MissingFields("PingResponse", MissingKeys(j.fields, PingKeys)))
    ensures r.Success? <==>
              j.JObj? && Get(j.fields, "message").Some? && Get(j.fields, "message").value.JStr?
              && Get(j.fields, "timestamp").Some? && Get(j.fields, "timestamp").value.JInt?
              && Get(j.fields, "protocolVersion").Some? && Get(j.fields, "protocolVersion").value.JInt?
    ensures r.Success? ==>
              && j.fields["message"] == JStr(r.value.message)
              && j.fields["timestamp"] == JInt(r.value.timestamp)
              && j.fields["protocolVersion"] == JInt(r.value.protocolVersion)
  {
    var m :- AsObject(j, "PingResponse");
    var _ :- RequireKeys(m, PingKeys, "PingResponse");
    var message :- ReqStr(m, "message", "PingResponse");
    var timestamp :- ReqInt(m, "timestamp", "PingResponse");
    var protocolVersion :- ReqInt(m, "protocolVersion", "PingResponse");
    Success(PingResponse(message, timestamp, protocolVersion))
  }

  function PingToDict(p: PingResponse): (r: map<string, Json>)
    ensures r.Keys == {"message", "timestamp", "protocolVersion"}
    ensures r["message"] == JStr(p.message) && r["timestamp"] == JInt(p.timestamp)
    ensures r["protocolVersion"] == JInt(p.protocolVersion)
  {
    map["message" := JStr(p.message), "timestamp" := JInt(p.timestamp),
        "protocolVersion" := JInt(p.protocolVersion)]
  }

  /** Every ping response survives encoding and decoding. */
  lemma PingRoundTrip(p: PingResponse)
    ensures PingFromDict(JObj(PingToDict(p))) == Success(p)
  {
  }

  /** Decoding keeps exactly the three known keys: re-encoding a decoded
      object gives back its known, non-null entries. */
  lemma PingDecodeThenEncode(j: Json)
    requires PingFromDict(j).Success?
    ensures PingToDict(PingFromDict(j).value) == Known(j.fields, {"message", "timestamp", "protocolVersion"})
  {
    var k := Known(j.fields, {"message", "timestamp", "protocolVersion"});
    assert k.Keys == {"message", "timestamp", "protocolVersion"};
  }

  // ---------------------------------------------------------- stop error

  datatype StopError = StopError(message: string)

  function StopErrorFromDict(j: Json): (r: Result<StopError, DecodeError>)
    ensures !j.JObj? ==> r == Failure(NotAnObject("StopError"))
    ensures j.JObj? && Get(j.fields, "message").None? ==> r == Failure(MissingFields("StopError", ["message"]))
    ensures r.Success? <==> j.JObj? && Get(j.fields, "message").Some? && Get(j.fields, "message").value.JStr?
    ensures r.Success? ==> j.fields["message"] == JStr(r.value.message)
  {
    var m :- AsObject(j, "StopError");
    var message :- ReqStr(m, "message", "StopError");
    Success(StopError(message))
  }

  function StopErrorToDict(e: StopError): (r: map<string, Json>)
    ensures r.Keys == {"message"} && r["message"] == JStr(e.message)
  {
    map["message" := JStr(e.message)]
  }

  lemma StopErrorRoundTrip(e: StopError)
    ensures StopErrorFromDict(JObj(StopErrorToDict(e))) == Success(e)
  {
  }

  // -------------------------------------------------------------- status

  datatype GetStatusResponse = GetStatusResponse(version: string, protocolVersion: int)

  const StatusKeys: seq<string> := ["version", "protocolVersion"]

  function StatusFromDict(j: Json): (r: Result<GetStatusResponse, DecodeError>)
    ensures !j.JObj? ==> r == Failure(NotAnObject("GetStatusResponse"))
    ensures j.JObj? && MissingKeys(j.fields, StatusKeys) != [] ==>
              r == Failure(MissingFields("GetStatusResponse", MissingKeys(j.fields, StatusKeys)))
    ensures r.Success? <==>
              j.JObj? && Get(j.fields, "version").Some? && Get(j.fields, "version").value.JStr?
              && Get(j.fields, "protocolVersion").Some? && Get(j.fields, "protocolVersion").value.JInt?
    ensures r.Success? ==>
              j.fields["version"] == JStr(r.value.version)
              && j.fields["protocolVersion"] == JInt(r.value.protocolVersion)
  {
    var m :- AsObject(j, "GetStatusResponse");
    var _ :- RequireKeys(m, StatusKeys, "GetStatusResponse");
    var version :- ReqStr(m, "version", "GetStatusResponse");
    var protocolVersion :- ReqInt(m, "protocolVersion", "GetStatusResponse");
    Success(GetStatusResponse(version, protocolVersion))
  }

  function StatusToDict(s: GetStatusResponse): (r: map<string, Json>)
    ensures r.Keys == {"version", "protocolVersion"}
    ensures r["version"] == JStr(s.version) && r["protocolVersion"] == JInt(s.protocolVersion)
  {
    map["version" := JStr(s.version), "protocolVersion" := JInt(s.protocolVersion)]
  }

  lemma StatusRoundTrip(s: GetStatusResponse)
    ensures StatusFromDict(JObj(StatusToDict(s))) == Success(s)
  {
  }

  // --------------------------------------------------------- auth status

  datatype GetAuthStatusResponse = GetAuthStatusResponse(
    isAuthenticated: bool,
    authType: Option<string>,
    host: Option<string>,
    login: Option<string>,
    statusMessage: Option<string>)

  const AuthKeys: set<string> := {"isAuthenticated", "authType", "host", "login", "statusMessage"}

  /** Only `isAuthenticated` is required, and it is read through `bool(...)`. */
  function AuthStatusFromDict(j: Json): (r: Result<GetAuthStatusResponse, DecodeError>)
    ensures !j.JObj? ==> r == Failure(NotAnObject("GetAuthStatusResponse"))
    ensures j.JObj? && Get(j.fields, "isAuthenticated").None? ==>
              r == Failure(MissingFields("GetAuthStatusResponse", ["isAuthenticated"]))
    ensures r.Success? <==>
              && j.JObj?
              && Get(j.fields, "isAuthenticated").Some?
              && StrOrAbsent(j.fields, "authType") && StrOrAbsent(j.fields, "host")
              && StrOrAbsent(j.fields, "login") && StrOrAbsent(j.fields, "statusMessage")
    ensures r.Success? ==>
              && r.value.isAuthenticated == Truthy(j.fields["isAuthenticated"])
              && OptStrAt(j.fields, "authType", r.value.authType)
              && OptStrAt(j.fields, "host", r.value.host)
              && OptStrAt(j.fields, "login", r.value.login)
              && OptStrAt(j.fields, "statusMessage", r.value.statusMessage)
    ensures j.JObj? && Get(j.fields, "isAuthenticated").Some? && r.Failure? ==> r.error.WrongKind?
  {
    var m :- AsObject(j, "GetAuthStatusResponse");
    var isAuthenticated :- ReqBool(m, "isAuthenticated", "GetAuthStatusResponse");
    var authType :- OptStr(m, "authType", "GetAuthStatusResponse");
    var host :- OptStr(m, "host", "GetAuthStatusResponse");
    var login :- OptStr(m, "login", "GetAuthStatusResponse");
    var statusMessage :- OptStr(m, "statusMessage", "GetAuthStatusResponse");
    Success(GetAuthStatusResponse(isAuthenticated, authType, host, login, statusMessage))
  }

  /** Writes `isAuthenticated` always and each optional field only when set. */
  function AuthStatusToDict(a: GetAuthStatusResponse): (r: map<string, Json>)
    ensures r.Keys <= AuthKeys
    ensures "isAuthenticated" in r && r["isAuthenticated"] == JBool(a.isAuthenticated)
    ensures ("authType" in r <==> a.authType.Some?) && (a.authType.Some? ==> r["authType"] == JStr(a.authType.value))
    ensures ("host" in r <==> a.host.Some?) && (a.host.Some? ==> r["host"] == JStr(a.host.value))
    ensures ("login" in r <==> a.login.Some?) && (a.login.Some? ==> r["login"] == JStr(a.login.value))
    ensures ("statusMessage" in r <==> a.statusMessage.Some?)
            && (a.statusMessage.Some? ==> r["statusMessage"] == JStr(a.statusMessage.value))
  {
    var r := map["isAuthenticated" := JBool(a.isAuthenticated)];
    var r := SetIfPresent(r, "authType", a.authType);
    var r := SetIfPresent(r, "host", a.host);
    var r := SetIfPresent(r, "login", a.login);
    SetIfPresent(r, "statusMessage", a.statusMessage)
  }

  /** `if value is not None: result[key] = value` for an optional string field. */
  function SetIfPresent(m: map<string, Json>, key: string, v: Option<string>): map<string, Json>
  {
    if v.Some? then m[key := JStr(v.value)] else m
  }

  lemma AuthStatusRoundTrip(a: GetAuthStatusResponse)
    ensures AuthStatusFromDict(JObj(AuthStatusToDict(a))) == Success(a)
  {
  }

  // ---------------------------------------------------- session metadata

  datatype SessionMetadata = SessionMetadata(
    sessionId: string,
    startTime: string,
    modifiedTime: string,
    isRemote: bool,
    summary: Option<string>)

  const SessionKeys: seq<string> := ["sessionId", "startTime", "modifiedTime", "isRemote"]

  function SessionMetadataFromDict(j: Json): (r: Result<SessionMetadata, DecodeError>)
    ensures !j.JObj? ==> r == Failure(NotAnObject("SessionMetadata"))
    ensures j.JObj? && MissingKeys(j.fields, SessionKeys) != [] ==>
              r == Failure(MissingFields("SessionMetadata", MissingKeys(j.fields, SessionKeys)))
    ensures r.Success? <==>
              && j.JObj?
              && Get(j.fields, "sessionId").Some? && Get(j.fields, "sessionId").value.JStr?
              && Get(j.fields, "startTime").Some? && Get(j.fields, "startTime").value.JStr?
              && Get(j.fields, "modifiedTime").Some? && Get(j.fields, "modifiedTime").value.JStr?
              && Get(j.fields, "isRemote").Some?
              && StrOrAbsent(j.fields, "summary")
    ensures r.Success? ==>
              && Get(j.fields, "sessionId") == Some(JStr(r.value.sessionId))
              && Get(j.fields, "startTime") == Some(JStr(r.value.startTime))
              && Get(j.fields, "modifiedTime") == Some(JStr(r.value.modifiedTime))
              && r.value.isRemote == Truthy(j.fields["isRemote"])
              && OptStrAt(j.fields, "summary", r.value.summary)
  {
    var m :- AsObject(j, "SessionMetadata");
    var _ :- RequireKeys(m, SessionKeys, "SessionMetadata");
    var sessionId :- ReqStr(m, "sessionId", "SessionMetadata");
    var startTime :- ReqStr(m, "startTime", "SessionMetadata");
    var modifiedTime :- ReqStr(m, "modifiedTime", "SessionMetadata");
    var isRemote :- ReqBool(m, "isRemote", "SessionMetadata");
    var summary :- OptStr(m, "summary", "SessionMetadata");
    Success(SessionMetadata(sessionId, startTime, modifiedTime, isRemote, summary))
  }

  function SessionMetadataToDict(s: SessionMetadata): (r: map<string, Json>)
    ensures r.Keys == {"sessionId", "startTime", "modifiedTime", "isRemote"} + (if s.summary.Some? then {"summary"} else {})
    ensures r["sessionId"] == JStr(s.sessionId) && r["startTime"] == JStr(s.startTime)
    ensures r["modifiedTime"] == JStr(s.modifiedTime) && r["isRemote"] == JBool(s.isRemote)
    ensures s.summary.Some? ==> r["summary"] == JStr(s.summary.value)
  {
    var r := map["sessionId" := JStr(s.sessionId), "startTime" := JStr(s.startTime),
                 "modifiedTime" := JStr(s.modifiedTime), "isRemote" := JBool(s.isRemote)];
    SetIfPresent(r, "summary", s.summary)
  }

  lemma SessionMetadataRoundTrip(s: SessionMetadata)
    ensures SessionMetadataFromDict(JObj(SessionMetadataToDict(s))) == Success(s)
  {
  }
}

=== FILE: results.dfy ===
/** Failure-compatible wrappers used throughout the model: `Option` stands for
    a nullable reference or an optional field, `Result` for a value or the
    error a decoder raises or a constructor panics with. Both work with `:-`. */
module Results {

  datatype Option<+T> = None | Some(value: T)

  datatype Result<+T, +E> = Success(value: T) | Failure(error: E) {

    predicate IsFailure() {
      Failure?
    }

    function PropagateFailure<U>(): Result<U, E>
      requires Failure?
    {
      Failure(error)
    }

    function Extract(): T
      requires Success?
    {
      value
    }
  }
}
